=== FILE: README.md ===
# threat-intel-ingestor: the collection and deduplication core in Dafny

The ingestor pulls threat-intelligence records from several public sources.
It normalises each one into a record (`BaseItem`: a Vulnerability, IOC or
NewsItem) and stores it in SQLite under a fingerprint. The fingerprint is the
SHA-256 of `kind:source:source_id`, and a record whose fingerprint is already
stored is skipped. This project models that core as pure Dafny functions and
proves what it promises. The modelled parts are:

- the record and its fingerprint (`Models`);
- the store, with its `items` and `state` tables, the first-write-wins
  `upsert_many`, `total_items`, the state accessors and `fetch_recent`
  (`Storage`);
- the NVD CVE API 2.0 collector (`Nvd`), whose `startIndex` paging loop is the
  generic `Paging` module;
- the RSS/Atom collector (`Rss`), including its CVE-id pattern;
- the CISA KEV collector (`Kev`);
- the runner, which splits collectors into an HTTP pool and a Selenium pool
  and isolates each unit's failure (`Runner`).

Supporting modules:

- `Json` models parsed JSON with the Python semantics the collectors rely on:
  truthiness, `or`, `dict.get` and `str()`.
- `Text` models the `str` operations the collectors use.
- `Wrappers` provides `Option` and `Result`.

Nothing the source does outside its own logic is modelled; each such input
is a parameter instead:

- the hash function is the parameter `sha256`;
- every HTTP exchange is a parameter (`server`, `download`, `payload`, or a
  collector's `fetched` result);
- the clock is a parameter (`nowMicros`, `collected`);
- Python's `repr` of lists and dicts is the parameter `render`.

Every property therefore holds for every hash function, clock and stateless server: one that answers a repeated request the same way.

## Model

| member | source | states |
|---|---|---|
| Models.KindOf | app/models.py:8 | a stored `kind` column reads back as a kind exactly when it is one of "vuln", "ioc", "news", and the kind is written as that tag |
| Models.TagRoundTrip | app/models.py:8 | every kind is written as one of the three tags and reads back as itself |
| Models.VariantFieldsDefaultToNone | app/models.py:31-45 | the variant-specific fields (cve, vendor, product, severity; indicator, ioc_type; summary) are None when a record is built without them |
| Models.FingerprintIgnoresContent | app/models.py:24-26 | `Fingerprint`: two records with the same kind, source and source_id get the same fingerprint, whatever their title, url, timestamps and payload |
| Models.FingerprintOfPreimage | app/models.py:24-26 | `Fingerprint` is `sha256` of `kind:source:source_id`: the fingerprint depends on the string `kind:source:source_id` alone |
| Models.FirstColonOfJoin | app/models.py:26 | in `x:y` with no colon in `x`, the first colon sits right after `x` |
| Models.SplitAtColon | app/models.py:26 | a colon-free left part and the rest are recovered by cutting at the first colon |
| Models.PreimageInjective | app/models.py:26 | when sources hold no colon, equal preimages mean equal (kind, source, source_id), so the fingerprint merges only records of one identity (up to hash collisions) |
| Models.PreimageAmbiguousWithColonInSource | app/models.py:26 | the separator is not escaped: source "a:b" with id "c" and source "a" with id "b:c" share a preimage |
| Storage.Initialize | app/storage.py:9-41 | `CREATE TABLE IF NOT EXISTS`: an existing table keeps every row, a missing one starts empty |
| Storage.ReopenKeepsEverything | app/storage.py:32-41 | initialising an existing store on start-up loses nothing |
| Storage.InitializeIdempotent | app/storage.py:32-41 | initialising twice equals initialising once |
| Storage.UpsertMany | app/storage.py:53-73 | inserted + skipped = batch size; the stored fingerprints grow by exactly the batch's; no stored row changes; a new fingerprint holds the row of its first occurrence in the batch; `inserted` counts the new fingerprints, so `total_items` grows by exactly `inserted`; `state` is untouched |
| Storage.AllStoredIsNoop | app/storage.py:59-70 | a batch whose fingerprints are all stored inserts nothing, skips every record and leaves the store as it was |
| Storage.ResubmitIsNoop | app/storage.py:53-73 | submitting a batch a second time gives (0, N) and leaves the store exactly as the first submission left it |
| Storage.TotalGrowsByInserted | app/storage.py:53-79 | `total_items` after `upsert_many` is the count before plus `inserted`, and `inserted` is the number of the batch's fingerprints that were not stored |
| Storage.DistinctFingerprintsCount | app/storage.py:60 | a batch with pairwise distinct fingerprints has as many fingerprints as records |
| Storage.IdempotentIngestion | app/storage.py:53-73 | N records with distinct, unstored fingerprints give (N, 0) on the first submission and (0, N) on the second |
| Storage.RepeatedWithinBatch | app/storage.py:59-70 | a batch made of one repeated, unstored fingerprint inserts one row, the first record's, and skips every other record (the general case, any batch, is in `Storage.UpsertMany`) |
| Storage.GetState | app/storage.py:81-86 | `get_state` returns the stored value exactly when the key is present, and None otherwise |
| Storage.SetState | app/storage.py:88-96 | after `set_state` the key reads back the new value (last write wins); every other key reads as before; `items` is untouched |
| Storage.LimitCount | app/storage.py:106 | `LIMIT` returns at most the rows there are and at most a non-negative limit, and cuts only at the limit; a negative limit means no limit |
| Storage.LatestExists | app/storage.py:105 | a non-empty set of stored rows has a most recently collected one |
| Storage.AppendOlder | app/storage.py:105 | appending an entry no later than the last one keeps the list newest-first |
| Storage.PickLatest | app/storage.py:105 | the chosen row is among those left and is collected no earlier than any of them |
| Storage.FetchRecent | app/storage.py:98-121 | returns LIMIT-many entries, each the six columns of a distinct stored row, ordered by `collected_at` descending; no unlisted row is newer than the last entry |
| Text.Strip | app/collectors/nvd_cves.py:25-26 | `strip()` removes only whitespace at the ends: the result is the slice of the string after its leading whitespace, and everything cut off after it is whitespace; the result is empty exactly when the string is blank, and otherwise starts and ends with non-whitespace |
| Text.StripKeepsUnpadded | app/collectors/news_rss.py:68 | a string without whitespace at either end is its own `strip()` |
| Text.StripSpaceHyphen | app/collectors/cisa_kev.py:24 | `strip(" -")` is the slice after the leading spaces and hyphens, with only spaces and hyphens cut off after it; it leaves no space or hyphen at either end and is empty exactly when the string holds only spaces and hyphens |
| Text.StripSpaceHyphenKeepsUnpadded | app/collectors/cisa_kev.py:24 | a string without space or hyphen at either end is its own `strip(" -")` |
| Text.Take | app/collectors/news_rss.py:66 | `s[:n]` is a prefix of length min(n, len) for n >= 0, and of length max(0, len + n) for a negative n |
| Text.UpperAscii | app/collectors/news_rss.py:79 | `upper()` keeps the length and uppercases each character |
| Text.NatToStringRoundTrip | app/collectors/cisa_kev.py:24 | reading back the digits `str(n)` prints gives n |
| Text.IntToString | app/collectors/cisa_kev.py:24 | `str(i)` is non-empty and starts with "-" exactly for negative i |
| Text.LessEqReflexive | app/storage.py:105 | the text order of `ORDER BY collected_at` is reflexive |
| Text.LessEqTotal | app/storage.py:105 | any two `collected_at` values are comparable |
| Text.LessEqTransitive | app/storage.py:105 | the text order is transitive |
| Json.GetOr | app/collectors/cisa_kev.py:22 | `v.get(key, default)` returns the stored value or the default on a dict, and raises AttributeError on anything else |
| Json.TruthyToStrNonEmpty | app/collectors/cisa_kev.py:29-30 | a truthy value never prints as "" when repr never does |
| Nvd.NewConfig | app/collectors/nvd_cves.py:68-82 | the API key is stripped; the window is one of day/week/month, kept when it is one of them and "day" otherwise |
| Nvd.LookbackDays | app/collectors/nvd_cves.py:91 | the lookback is 1 day for "day", 7 for "week" and 30 for any other window |
| Nvd.FloorToSecond | app/collectors/nvd_cves.py:16 | `replace(microsecond=0)` gives the second that contains the instant |
| Nvd.FloorShift | app/collectors/nvd_cves.py:16 | truncating to the second commutes with shifting by whole days |
| Nvd.WindowRange | app/collectors/nvd_cves.py:89-92 | the end is the second holding "now", the start is exactly the lookback earlier, and both are whole seconds |
| Nvd.FirstUsable | app/collectors/nvd_cves.py:22-31 | finds the first entry with a non-blank string value (restricted to "es"/"en" when asked), and none is usable before it |
| Nvd.FirstUsableIsFirst | app/collectors/nvd_cves.py:22-31 | a usable entry with none usable before it is the one found |
| Nvd.FirstText | app/collectors/nvd_cves.py:20-32 | "" for a non-list, and for a list exactly when no entry is usable; otherwise the stripped value of the first "es"/"en" entry in list order, or of the first usable entry of any language when there is no such entry |
| Nvd.FirstTextTakesListOrder | app/collectors/nvd_cves.py:22-26 | "en" before "es" in the list yields the English text: neither language is preferred |
| Nvd.Probe | app/collectors/nvd_cves.py:39-43 | one family: a non-dict `metrics` raises AttributeError; a family that is not a non-empty list yields nothing; otherwise element 0 raises exactly when it is truthy and not a dict, and yields a severity exactly when it is a dict with a non-empty string `baseSeverity`, which is the severity |
| Nvd.ExtractSeverity | app/collectors/nvd_cves.py:35-58 | a non-dict CVE object raises AttributeError; falsy `metrics` yields None; otherwise the result is the family search over v4.0, v4, v3.1, v3.0, v2 in that order |
| Nvd.FirstSeverity | app/collectors/nvd_cves.py:38-58 | the result is None exactly when no family yields one; otherwise it is what the first family that yields or raises gives |
| Nvd.SeverityPrecedence | app/collectors/nvd_cves.py:38-58 | the first family that yields a severity decides, whatever the later ones hold |
| Nvd.ProbeAbsent | app/collectors/nvd_cves.py:39-40 | a family the metrics do not list yields nothing |
| Nvd.ProbeHead | app/collectors/nvd_cves.py:39-43 | a family is read from element 0: its non-empty string `baseSeverity`, or nothing |
| Nvd.ExtractFrom | app/collectors/nvd_cves.py:36 | a non-empty `metrics` dict is searched as it stands |
| Nvd.V31BeatsV2 | app/collectors/nvd_cves.py:45-56 | without a v4 rating, a v3.1 rating is returned whatever v3.0 and v2 hold |
| Nvd.EmptyHeadSilent | app/collectors/nvd_cves.py:38-50 | when v3.1 starts with `{}` and v4 and v3.0 are absent, the families before v2 yield nothing |
| Nvd.OnlyFirstElementCounts | app/collectors/nvd_cves.py:45-56 | only `arr[0]` is consulted: a v3.1 list whose first element lacks `baseSeverity` falls through to v2 |
| Nvd.MakeTitle | app/collectors/nvd_cves.py:135-137 | the title is at most 180 characters; it is the full `id - desc` exactly when that fits, otherwise its first 177 characters and "..." |
| Nvd.PublishedAt | app/collectors/nvd_cves.py:160 | `published` when it is a string, else `lastModified` when it is, else None |
| Nvd.LiteRaw | app/collectors/nvd_cves.py:139-149 | the lite payload has exactly the seven keys, with `id` and the other six copied from the CVE object |
| Nvd.MapItem | app/collectors/nvd_cves.py:123-168 | an item is skipped exactly when its `cve` is a dict whose id is not a string starting with "CVE-"; it is kept exactly when the id is such a string and the severity extraction does not raise; a kept record is a well-formed NVD record with source_id the id, title `MakeTitle` of the id and the first description, url the NVD detail page of the id, published_at `published` else `lastModified`, raw the lite payload or the whole item as configured, and the extracted severity |
| Nvd.Collect | app/collectors/nvd_cves.py:123-168 | the loop succeeds exactly when no item raises, and then returns the `Some` results of the items, in item order (`Kept`), at most one per item |
| Nvd.KeptSplit | app/collectors/nvd_cves.py:123-153 | the records kept from `a + b` are those kept from `a` followed by those kept from `b` |
| Nvd.KeptAt | app/collectors/nvd_cves.py:123-153 | a kept item's record sits between the records kept before it and those kept after it |
| Nvd.CollectFrom | app/collectors/nvd_cves.py:123-168 | every kept record is what the mapping returned for some item |
| Nvd.MapItems | app/collectors/nvd_cves.py:123-168 | a page maps without error exactly when no item raises; it then returns the mapped records of the kept items in page order, each a well-formed NVD record, at most one per item |
| Nvd.CveItemKept | app/collectors/nvd_cves.py:123-168 | on a page that maps without error, every item with a `CVE-` id is kept: its record appears in the page's records, between those of the items before and after it |
| Nvd.ReadPage | app/collectors/nvd_cves.py:117-175 | a non-dict body raises; an empty or non-list `vulnerabilities` ends the loop with no records; otherwise the page raises exactly when an item does, its records are exactly the page's mapped records, the advance is `resultsPerPage` if it is an int, else the page length, and `totalResults` is taken if it is an int |
| Nvd.AllNvdConcat | app/collectors/nvd_cves.py:153 | appending well-formed records to well-formed records keeps them well-formed |
| Nvd.GatheredAllNvd | app/collectors/nvd_cves.py:100-181 | everything gathered over the pages is a well-formed NVD record |
| Nvd.Fetch | app/collectors/nvd_cves.py:94-181 | a blank API key means no request and no records; otherwise the first request is at index 0, each later one at the previous index plus the previous page's advance, a finished run ended on a page that stops the loop and returns the records of all its pages in request order, and every returned record is a well-formed NVD record; at most `fuel` requests are made, and there is one sleep per request, except none after the last request of a run that did not run out of fuel |
| Paging.ChainCons | app/collectors/nvd_cves.py:175-179 | a continuing page followed by a chained run at its advance is a chained run |
| Paging.GatheredCons | app/collectors/nvd_cves.py:123-153 | the records of a run are the first page's followed by the rest's |
| Paging.PaginateShape | app/collectors/nvd_cves.py:104-179 | `Paginate`, the `while True` loop: at most `fuel` requests, the first at the start index; a run that ends sleeps after every page but the last; an exhausted run used every request |
| Paging.PaginateStep | app/collectors/nvd_cves.py:170-179 | a continuing page is followed by the loop from `start + advance`, with one sleep between them, and its records come first |
| Paging.PaginateStops | app/collectors/nvd_cves.py:119-121 | a page that stops the loop is the last request and returns its records without a sleep |
| Paging.PaginateRaises | app/collectors/nvd_cves.py:115-116 | a raising request ends the loop with that error |
| Paging.PaginateChained | app/collectors/nvd_cves.py:170-179 | each request after the first starts at the previous index plus the previous page's advance, and every page but the last continued the loop |
| Paging.PaginateEnded | app/collectors/nvd_cves.py:119-121 | a finished run ended on a page that stops the loop |
| Paging.PaginateGathered | app/collectors/nvd_cves.py:100-181 | a finished `Paginate` run returns the records of all its pages, in request order |
| Paging.PaginateRaised | app/collectors/nvd_cves.py:115-116 | a raising run raised on its last request |
| Paging.PagesForIsCeiling | app/collectors/nvd_cves.py:175-177 | `PagesFor(a, p)` is ceil(a / p) |
| Paging.UniformPaging | app/collectors/nvd_cves.py:104-179 | with full pages of size P out of T results, the loop finishes after exactly ceil(T / P) requests at 0, P, 2P, ..., with sleeps only between them |
| Paging.EmptyWindowOneRequest | app/collectors/nvd_cves.py:119-121 | a window with no results costs one request, no sleep and no records |
| Paging.PositiveAdvanceTerminates | app/collectors/nvd_cves.py:170-177 | pages that always advance and report an int total end the loop within max(1, T - start) requests |
| Paging.ZeroAdvanceNeverEnds | app/collectors/nvd_cves.py:170-177 | a non-empty page reporting `resultsPerPage: 0` below the total makes the loop request the same page forever |
| Rss.DigitRunEnd | app/collectors/news_rss.py:12 | the run of digits from a position ends where the next non-digit (or the end) is |
| Rss.DigitRunEndUnique | app/collectors/news_rss.py:12 | a digit run that stops at e ends at e |
| Rss.MatchLenCorrect | app/collectors/news_rss.py:12 | the computed match length at a position is exactly a match of `\bCVE-\d{4}-\d{4,7}\b` |
| Rss.MatchLengthUnique | app/collectors/news_rss.py:12 | at most one match starts at a position |
| Rss.Search | app/collectors/news_rss.py:78 | `re.search` returns a match with no match starting earlier, or reports that none starts anywhere |
| Rss.SearchCorrect | app/collectors/news_rss.py:78 | the search from the start is None exactly when the pattern occurs nowhere, and otherwise finds the leftmost match |
| Rss.FindCve | app/collectors/news_rss.py:76-79 | the id is None exactly when the pattern occurs nowhere; otherwise it is the leftmost match uppercased, 13 to 16 characters long and starting "CVE-" |
| Rss.MatchedPrefix | app/collectors/news_rss.py:12 | every match, uppercased, starts with "CVE-" |
| Rss.PatchedNoteMatches | app/collectors/news_rss.py:12 | the lower-case "cve-2023-1234" matches (`re.IGNORECASE`) |
| Rss.PatchedNoteUpper | app/collectors/news_rss.py:79 | that match uppercases to "CVE-2023-1234" |
| Rss.LowerCaseIdIsFound | app/collectors/news_rss.py:76-79 | "cve-2023-1234 patched" yields the id "CVE-2023-1234" |
| Rss.EightDigitsAreNotAnId | app/collectors/news_rss.py:12 | an eight-digit second number is no match at all |
| Rss.GluedPrefixIsNotAnId | app/collectors/news_rss.py:12 | a word character just before "CVE" defeats the leading `\b` |
| Rss.ConfigureFeeds | app/collectors/news_rss.py:37-42 | `feeds`, when given, is used as it is; otherwise one triple, which requires both url and name to be truthy, and ValueError when either is not |
| Rss.OrElse | app/collectors/news_rss.py:69 | Python `a or b`: `a` when truthy, else `b` |
| Rss.EntryTitle | app/collectors/news_rss.py:68 | the stripped title when truthy, else "Entrada RSS"; empty exactly for a blank title |
| Rss.IdentityKey | app/collectors/news_rss.py:72-73 | `id or guid` when truthy, else the link, else `title|published-or-""` |
| Rss.SourceId | app/collectors/news_rss.py:73 | the identity key cut to at most 500 characters, as a prefix |
| Rss.MapEntry | app/collectors/news_rss.py:67-119 | source `rss_<name>`, id, title, url, published and collection time as the entry gives them; a Vulnerability with the leftmost CVE id exactly for "vuln" feeds, otherwise a NewsItem with the summary; `raw` is the dict of the record's title, url and published date, the entry's summary and the feed url |
| Rss.SameGuidSameFingerprint | app/collectors/news_rss.py:72-74 | entries of a feed that share a truthy id or guid share a fingerprint, so a re-published entry is deduplicated |
| Rss.FeedItems | app/collectors/news_rss.py:66-119 | a feed that was read contributes its first `limit_per_feed` entries, mapped, in feed order |
| Rss.ConcatSplit | app/collectors/news_rss.py:53-121 | the records of a list of feeds are the first part's followed by the second part's |
| Rss.ConcatBound | app/collectors/news_rss.py:66 | feeds each giving at most `limit` records give at most `feeds * limit` |
| Rss.FetchFeedsSplit | app/collectors/news_rss.py:49-121 | `FetchFeeds`, the feed loop: feeds are independent: fetching `a + b` is fetching `a`, then `b` |
| Rss.FailingFeedIsSkipped | app/collectors/news_rss.py:54-59 | `FeedOutcome`: a feed whose download or parse raises contributes nothing, and the feeds after it are still processed |
| Rss.ReadFeedContributes | app/collectors/news_rss.py:61-119 | `FeedOutcome`: a feed that was read contributes exactly its mapped first `limit` entries, in place |
| Rss.FetchFeedsBound | app/collectors/news_rss.py:66 | with a non-negative limit, `fetch` returns at most `limit_per_feed` records per feed |
| Kev.Elements | app/collectors/cisa_kev.py:22 | `for v in ...` over a list visits its elements; an empty dict or string visits nothing; a non-empty dict or string raises AttributeError at `v.get`; anything else is not iterable |
| Kev.Stored | app/collectors/cisa_kev.py:32-37 | None is stored as None and a string as itself |
| Kev.Heading | app/collectors/cisa_kev.py:24 | the heading is `f"{cve} - {name}"` stripped of spaces and hyphens: the slice of that string after its leading spaces and hyphens, with only spaces and hyphens cut off after it; so it has none at either end and is no longer than `id - name` |
| Kev.MissingIdHeadingStartsNone | app/collectors/cisa_kev.py:23-24 | an element without `cveID` has a heading that starts with "None", whatever its name |
| Kev.MapElement | app/collectors/cisa_kev.py:23-40 | a dict element becomes a KEV record (kind vuln, source cisa_kev, no severity, raw = the element); source_id is the id when truthy, else the heading; title is the heading, else the id, else "CISA KEV item"; url is None exactly when `notes` is falsy; published_at, vendor and product are the stored `dateAdded`, `vendorProject` and `product`; a non-dict raises AttributeError |
| Kev.FirstNonDict | app/collectors/cisa_kev.py:22-23 | the position of the first element that is not a dict, with every earlier element a dict |
| Kev.MapAll | app/collectors/cisa_kev.py:22-40 | the loop succeeds exactly when every element is a dict, giving one record per element in order; otherwise it raises the first non-dict's error |
| Kev.Fetch | app/collectors/cisa_kev.py:15-41 | a raised download propagates; a non-dict body raises; a missing `vulnerabilities` yields no records; a list succeeds exactly when every element is a dict, and then record k is element k mapped by `MapElement`, one per element in order |
| Kev.NoneFooHeading | app/collectors/cisa_kev.py:24 | without `cveID`, the heading of name "Foo" is "None - Foo" |
| Kev.MissingIdPrintsNone | app/collectors/cisa_kev.py:23-35 | an element without `cveID` is titled "None - Foo", that title is its source_id, and its cve is None |
| Kev.UnidentifiedElementsCollide | app/collectors/cisa_kev.py:24-29 | elements without a truthy id that print the same and share a name share a fingerprint |
| Kev.SameIdSameFingerprint | app/collectors/cisa_kev.py:29 | elements with the same truthy string id share a fingerprint |
| Kev.TitleNonEmpty | app/collectors/cisa_kev.py:30 | with a repr that never prints "", every title is non-empty |
| Runner.ErrorStatus | app/runner.py:19 | an error status is never "ok" |
| Runner.RunOne | app/runner.py:13-19 | the report carries the collector's name; it is "ok" exactly when neither fetch nor upsert raised; a failing unit reports (name, 0, 0, error) and leaves the store alone |
| Runner.RunOneUpserts | app/runner.py:14-17 | a succeeding unit's counts and store are those of upserting what it fetched |
| Runner.RunPool | app/runner.py:23-28 | one report per unit |
| Runner.RunPoolReports | app/runner.py:23-28 | the k-th report is the k-th completed unit's: its name, "ok" exactly when it succeeded, and its failure report otherwise |
| Runner.RunPoolStore | app/runner.py:23-28 | the store grows by exactly the reported inserts, keeps every fingerprint it had, and its state is untouched |
| Runner.RunPoolCons | app/runner.py:23-28 | a pool runs its first unit, then the rest on the store it left |
| Runner.RunPoolSplit | app/runner.py:23-37 | running `a + b` is running `a`, then `b` on the store `a` left |
| Runner.FailureIsIsolated | app/runner.py:13-19 | a failing unit reports its error with no counts, and every other unit reports, and the store ends, exactly as in a run without it |
| Runner.Http | app/runner.py:10 | the HTTP pool holds exactly the collectors that do not need Selenium |
| Runner.Sel | app/runner.py:11 | the Selenium pool holds exactly those that do |
| Runner.PartitionExact | app/runner.py:10-11 | every collector lands in exactly one pool, as often as it is listed |
| Runner.ApplyPermutation | app/runner.py:25-35 | reordering a sequence reorders its image |
| Runner.NamesOfPermutation | app/runner.py:25-35 | reordering collectors reorders their names |
| Runner.SchedulesCover | app/runner.py:9-39 | the two completion orders together list every collector as often as the input does, HTTP collectors first |
| Runner.RunCollectors | app/runner.py:9-39 | one report per collector; the run is the HTTP completion order followed by the Selenium one, on one store |
| Runner.RunCollectorsReports | app/runner.py:9-39 | the report names are a permutation of the collector names; every HTTP report precedes every Selenium one; "ok" exactly for the units that succeeded; the store grows by the reported inserts and its state is untouched |

## Left out

- HTTP, the sessions and their timeouts (`app/http_client.py`), and `feedparser.parse` are not modelled. Each exchange is a parameter that returns a parsed body or the error raised.
- The throttle `time.sleep` between NVD pages is counted in `Crawl.sleeps`, not performed. The sleep length and the request timeouts are not modelled.
- The clock (`now_iso`, `datetime.now`) is a parameter. The ISO-8601 formatting of `_iso_utc_millis` and `now_iso` is not modelled, so the window is kept in microseconds since the epoch.
- Thread pools and the worker counts are not modelled: each pool's units run one after another, in a completion order given as a parameter (any permutation of the pool). Concurrent writes to SQLite are taken to serialise in completion order.
- The per-thread connections, `close_thread`, the WAL and synchronous pragmas, the indexes and the SQL text are not modelled.
- `app/main.py`, `app/selenium_pool.py` and the collectors outside the three above are not part of this model.
- `Collector.timeout_seconds` is left out because no core file calls it.
- The console output of `print` (each unit's status line, the RSS feed warnings) is left out.
- Floating-point JSON numbers are not modelled; `Json.Value` holds integers only.
- `IOC` records exist in the data model, but no modelled collector produces them.
- The NVD server and the RSS download are functions of the request (`Session.server`, `download`), so a repeated request gets the same answer. A real server may answer differently: `Paging.ZeroAdvanceNeverEnds` relies on the repeated request at the same `startIndex` getting the same page, and a feed listed twice gets the same outcome both times.
- Nvd.Fetch: Python's `while True` loop has no bound. The model allows at most `fuel` requests and reports `Exhausted` beyond that, so a run needing more is not modelled.
- Runner.RunOne: an upsert that raises an error other than IntegrityError is taken to leave the store as it was. In the source, the rows inserted before the error stay uncommitted on that thread's connection, and the next commit on it would persist them.
- Rss.FindCve: `\d` and `\w` are ASCII here. Python's match Unicode digits and letters too.
- Json.ToStr: `str()` of a list or dict is Python's `repr`, which is the parameter `render` and is not modelled.
- Kev.MapElement: `source_id`, `cve`, `url`, `published_at`, `vendor` and `product` hold the source value as it is, and it is a string for the CISA feed. For any other non-null value the model stores its `str()`, because the record's fields are optional strings. In the source a list or dict `cveID` (or truthy `notes`, or `dateAdded`) is bound as an INSERT parameter, where sqlite3 raises an error other than IntegrityError, so `upsert_many` raises and the whole KEV unit reports an error; the model stores a row for it instead. A number there is stored as a number by SQLite and as its digits by the model.
- Storage.FetchRecent: rows with equal `collected_at` come back in an order SQLite leaves open, so the method may return any of those orders.
- Models.Fingerprint: SHA-256 is the parameter `sha256`. Properties that need the hash to be collision-free are stated at the preimage instead (`Models.PreimageInjective`).
- Pagination with zero results: the code makes one request when `totalResults` is 0, and `Paging.EmptyWindowOneRequest` follows the code. The "exactly ceil(T / P) requests" rule therefore holds only for T > 0 (`Paging.UniformPaging`).

=== FILE: json.dfy ===
/** Parsed JSON as the Python collectors see it after `r.json()`, together
    with the few Python operations they apply to it: truthiness, `a or b`,
    `d.get(key[, default])` (which raises on anything but a dict),
    `isinstance(x, int)` / `isinstance(x, str)` and `str(x)`. */
module Json {
  import opened Wrappers
  import Text

  /** A JSON value; objects are maps because Python dicts hold each key once. */
  datatype Value =
    | Null
    | Bool(b: bool)
    | Int(i: int)
    | Str(s: string)
    | List(items: seq<Value>)
    | Obj(fields: map<string, Value>)

  /** The `{}` literal the collectors fall back to. */
  const EmptyObj: Value := Obj(map[])

  /** Python truthiness: `None`, `False`, `0`, `""`, `[]` and `{}` are falsy. */
  predicate Truthy(v: Value) {
    match v
    case Null => false
    case Bool(b) => b
    case Int(i) => i != 0
    case Str(s) => s != ""
    case List(xs) => xs != []
    case Obj(m) => m != map[]
  }

  /** Python `a or b`. */
  function Or(a: Value, b: Value): Value {
    if Truthy(a) then a else b
  }

  /** The name `type(v).__name__` gives. */
  function TypeName(v: Value): string {
    match v
    case Null => "NoneType"
    case Bool(_) => "bool"
    case Int(_) => "int"
    case Str(_) => "str"
    case List(_) => "list"
    case Obj(_) => "dict"
  }

  /** The exception `v.get(...)` raises when `v` is not a dict. */
  function NoGetAttribute(v: Value): Exception {
    Exception("AttributeError(\"'" + TypeName(v) + "' object has no attribute 'get'\")")
  }

  /** Python `v.get(key, default)`: the stored value, `default` when the key
      is absent, and an AttributeError when `v` is not a dict. */
  function GetOr(v: Value, key: string, default: Value): (r: Result<Value>)
    ensures r.Ok? <==> v.Obj?
    ensures r.Err? ==> r.error == NoGetAttribute(v)
    ensures v.Obj? && key in v.fields ==> r.Ok? && r.value == v.fields[key]
    ensures v.Obj? && key !in v.fields ==> r.Ok? && r.value == default
  {
    if v.Obj? then Ok(if key in v.fields then v.fields[key] else default)
    else Err(NoGetAttribute(v))
  }

  /** Python `v.get(key)`; a missing key reads as `None`. */
  function Get(v: Value, key: string): Result<Value> {
    GetOr(v, key, Null)
  }

  /** `m.get(key)` on a value already known to be a dict. */
  function Field(m: map<string, Value>, key: string): Value {
    if key in m then m[key] else Null
  }

  /** `v` when `isinstance(v, int)`; `bool` is a subclass of `int` in Python. */
  function AsInt(v: Value): Option<int> {
    match v
    case Int(i) => Some(i)
    case Bool(b) => Some(if b then 1 else 0)
    case _ => None
  }

  /** Python `str(v)`. The text of a list or dict is Python's `repr`, which
      this model takes from `render`. */
  function ToStr(v: Value, render: Value -> string): string {
    match v
    case Null => "None"
    case Bool(b) => if b then "True" else "False"
    case Int(i) => Text.IntToString(i)
    case Str(s) => s
    case List(_) => render(v)
    case Obj(_) => render(v)
  }

  /** An optional string as JSON: `None` is `null`. */
  function OfOption(o: Option<string>): Value {
    match o
    case None => Null
    case Some(s) => Str(s)
  }

  /** A truthy value never prints as the empty string. */
  lemma TruthyToStrNonEmpty(v: Value, render: Value -> string)
    requires forall w :: render(w) != ""
    requires Truthy(v)
    ensures ToStr(v, render) != ""
  {
  }
}

=== FILE: kev.dfy ===
/** The CISA Known Exploited Vulnerabilities collector (`CisaKevCollector`):
    one Vulnerability per element of the catalogue's `vulnerabilities`
    list. The download is the parameter `payload` (the parsed body, or the
    error the request raised); Python's `repr` of containers is `render`. */
module Kev {
  import opened Wrappers
  import opened Json
  import opened Models
  import Text

  const SourceName := "cisa_kev"
  const DefaultTitle := "CISA KEV item"

  /** `type(v).__name__` object is not iterable. */
  function NotIterable(v: Value): Exception {
    Exception("TypeError(\"'" + TypeName(v) + "' object is not iterable\")")
  }

  /** What `for v in value` visits, as far as the loop body can survive it:
      a list gives its elements; an empty dict or string gives nothing; a
      non-empty dict or string yields strings, on which `v.get` raises;
      None, booleans and numbers are not iterable. */
  function Elements(value: Value): (r: Result<seq<Value>>)
    ensures r.Ok? <==> value.List? || value == EmptyObj || value == Str("")
    ensures r.Ok? && value.List? ==> r.value == value.items
    ensures r.Ok? && !value.List? ==> r.value == []
    ensures r.Err? && (value.Obj? || value.Str?) ==> r.error == NoGetAttribute(Str(""))
    ensures r.Err? && !(value.Obj? || value.Str?) ==> r.error == NotIterable(value)
  {
    match value
    case List(xs) => Ok(xs)
    case Obj(m) => if m == map[] then Ok([]) else Err(NoGetAttribute(Str("")))
    case Str(s) => if s == "" then Ok([]) else Err(NoGetAttribute(Str("")))
    case _ => Err(NotIterable(value))
  }

  /** A field as the record stores it: None stays None, any other value is
      its `str()`. */
  function Stored(v: Value, render: Value -> string): (r: Option<string>)
    ensures r.None? <==> v == Null
    ensures v.Str? ==> r == Some(v.s)
  {
    if v == Null then None else Some(ToStr(v, render))
  }

  /** `f"{cve} - {name}"`: the string the heading strips. */
  function Joined(cve: string, name: string): string {
    cve + " - " + name
  }

  /** `Joined(cve, name).strip(" -")`. */
  function StripJoined(cve: string, name: string): (h: string)
    ensures Text.StripsSpaceHyphenTo(Joined(cve, name), h)
    ensures |h| <= |cve| + 3 + |name|
    ensures h == "" || (h[0] !in " -" && h[|h| - 1] !in " -")
  {
    Text.StripSpaceHyphen(Joined(cve, name))
  }

  /** The string the heading strips: `f"{cve} - {name}"`, where a missing
      id prints as "None" and a missing name as "". */
  function HeadingSource(fields: map<string, Value>, render: Value -> string): string {
    Joined(ToStr(Field(fields, "cveID"), render), ToStr(GetOr(Obj(fields), "vulnerabilityName", Str("")).value, render))
  }

  /** `f"{cve} - {name}".strip(" -")`: a missing id is printed as "None". */
  function Heading(fields: map<string, Value>, render: Value -> string): (h: string)
    ensures Text.StripsSpaceHyphenTo(HeadingSource(fields, render), h)
    ensures |h| <= |ToStr(Field(fields, "cveID"), render)| + 3 + |ToStr(GetOr(Obj(fields), "vulnerabilityName", Str("")).value, render)|
    ensures h == "" || (h[0] !in " -" && h[|h| - 1] !in " -")
  {
    StripJoined(ToStr(Field(fields, "cveID"), render), ToStr(GetOr(Obj(fields), "vulnerabilityName", Str("")).value, render))
  }

  /** Without `cveID` the heading starts with "None", whatever the name. */
  lemma MissingIdHeadingStartsNone(fields: map<string, Value>, render: Value -> string)
    requires "cveID" !in fields
    ensures var h := Heading(fields, render); |h| >= 4 && h[..4] == "None"
  {
    var s := HeadingSource(fields, render);
    assert s[..4] == "None";
    assert !Text.SpaceOrHyphen(s[0]) && !Text.SpaceOrHyphen(s[3]);
  }

  /** What every record of this collector looks like. */
  predicate IsKevRecord(it: Item, collected: string) {
    && it.Vulnerability?
    && it.kind == VulnKind
    && it.source == SourceName
    && it.severity == None
    && it.collectedAt == collected
  }

  /** The loop body for one element: an AttributeError when it is not a
      dict. `source_id` is the id when truthy, else the heading; the title
      is the heading, else the id when truthy, else "CISA KEV item"; the
      url is `notes` when truthy, else None. */
  function MapElement(v: Value, collected: string, render: Value -> string): (r: Result<Item>)
    ensures r.Ok? <==> v.Obj?
    ensures r.Err? ==> r.error == NoGetAttribute(v)
    ensures r.Ok? ==> IsKevRecord(r.value, collected) && r.value.raw == v
    ensures r.Ok? ==> var cve := Field(v.fields, "cveID"); var h := Heading(v.fields, render);
      && (Truthy(cve) ==> r.value.sourceId == ToStr(cve, render))
      && (!Truthy(cve) ==> r.value.sourceId == h)
      && (h != "" ==> r.value.title == h)
      && (h == "" && Truthy(cve) ==> r.value.title == ToStr(cve, render))
      && (h == "" && !Truthy(cve) ==> r.value.title == DefaultTitle)
      && r.value.cve == Stored(cve, render)
    ensures r.Ok? ==> && r.value.publishedAt == Stored(Field(v.fields, "dateAdded"), render)
                      && r.value.vendor == Stored(Field(v.fields, "vendorProject"), render)
                      && r.value.product == Stored(Field(v.fields, "product"), render)
    ensures r.Ok? ==> (r.value.url.None? <==> !Truthy(Field(v.fields, "notes")))
    ensures r.Ok? && Field(v.fields, "notes").Str? && Truthy(Field(v.fields, "notes")) ==>
      r.value.url == Some(Field(v.fields, "notes").s)
  {
    if !v.Obj? then Err(NoGetAttribute(v))
    else
      var f := v.fields;
      var cve := Field(f, "cveID");
      var h := Heading(f, render);
      var notes := Field(f, "notes");
      Ok(Vulnerability(VulnKind, SourceName,
                       if Truthy(cve) then ToStr(cve, render) else h,
                       if h != "" then h else if Truthy(cve) then ToStr(cve, render) else DefaultTitle,
                       if Truthy(notes) then Stored(notes, render) else None,
                       Stored(Field(f, "dateAdded"), render), collected, v,
                       cve := Stored(cve, render),
                       vendor := Stored(Field(f, "vendorProject"), render),
                       product := Stored(Field(f, "product"), render),
                       severity := None))
  }

  /** The position of the first element that is not a dict, or `|elems|`. */
  function FirstNonDict(elems: seq<Value>, from: nat): (k: nat)
    requires from <= |elems|
    ensures from <= k <= |elems|
    ensures forall j :: from <= j < k ==> elems[j].Obj?
    ensures k < |elems| ==> !elems[k].Obj?
    decreases |elems| - from
  {
    if from == |elems| || !elems[from].Obj? then from else FirstNonDict(elems, from + 1)
  }

  /** The whole loop: one record per element, in order; the first element
      that is not a dict raises, so nothing is returned. */
  function MapAll(elems: seq<Value>, collected: string, render: Value -> string): (r: Result<seq<Item>>)
    ensures r.Ok? <==> forall k :: 0 <= k < |elems| ==> elems[k].Obj?
    ensures r.Ok? ==> |r.value| == |elems|
    ensures r.Ok? ==> forall k :: 0 <= k < |elems| ==> Ok(r.value[k]) == MapElement(elems[k], collected, render)
    ensures r.Err? ==> var k := FirstNonDict(elems, 0);
      k < |elems| && Err(r.error) == MapElement(elems[k], collected, render)
  {
    var k := FirstNonDict(elems, 0);
    if k < |elems| then Err(NoGetAttribute(elems[k]))
    else Ok(seq(|elems|, j requires 0 <= j < |elems| => MapElement(elems[j], collected, render).value))
  }

  /** `fetch()`: the response must be a dict; a missing `vulnerabilities`
      key yields no records. */
  function Fetch(payload: Result<Value>, collected: string, render: Value -> string): (r: Result<seq<Item>>)
    ensures payload.Err? ==> r == Err(payload.error)
    ensures payload.Ok? && !payload.value.Obj? ==> r == Err(NoGetAttribute(payload.value))
    ensures payload.Ok? && payload.value.Obj? && "vulnerabilities" !in payload.value.fields ==> r == Ok([])
    ensures payload.Ok? && payload.value.Obj? && Field(payload.value.fields, "vulnerabilities").List? ==>
      var elems := Field(payload.value.fields, "vulnerabilities").items;
      && (r.Ok? <==> forall k :: 0 <= k < |elems| ==> elems[k].Obj?)
      && (r.Ok? ==> |r.value| == |elems|)
      && (r.Ok? ==> forall k :: 0 <= k < |elems| ==> Ok(r.value[k]) == MapElement(elems[k], collected, render))
    ensures r.Ok? ==> forall k :: 0 <= k < |r.value| ==> IsKevRecord(r.value[k], collected)
  {
    var data :- payload;
    var vulns :- GetOr(data, "vulnerabilities", List([]));
    var elems :- Elements(vulns);
    MapAll(elems, collected, render)
  }

  lemma NoneFooHeading(render: Value -> string)
    ensures Heading(map["vulnerabilityName" := Str("Foo")], render) == "None - Foo"
  {
    var s := "None - Foo";
    assert Field(map["vulnerabilityName" := Str("Foo")], "cveID") == Null;
    Text.StripSpaceHyphenKeepsUnpadded(s);
  }

  /** An element without `cveID` is titled "None - <name>", and that title
      is its `source_id`. */
  lemma MissingIdPrintsNone(collected: string, render: Value -> string)
    ensures var r := MapElement(Obj(map["vulnerabilityName" := Str("Foo")]), collected, render);
      r.Ok? && r.value.title == "None - Foo" && r.value.sourceId == "None - Foo" && r.value.cve == None
  {
    var fields := map["vulnerabilityName" := Str("Foo")];
    assert Field(fields, "cveID") == Null;
    NoneFooHeading(render);
  }

  /** Elements without a truthy `cveID` that share a name share a
      fingerprint, so all but the first of them are dropped as duplicates. */
  lemma UnidentifiedElementsCollide(sha256: string -> string, v1: Value, v2: Value, c1: string, c2: string,
                                    render: Value -> string)
    requires v1.Obj? && v2.Obj?
    requires !Truthy(Field(v1.fields, "cveID")) && !Truthy(Field(v2.fields, "cveID"))
    requires ToStr(Field(v1.fields, "cveID"), render) == ToStr(Field(v2.fields, "cveID"), render)
    requires GetOr(v1, "vulnerabilityName", Str("")) == GetOr(v2, "vulnerabilityName", Str(""))
    ensures Fingerprint(sha256, MapElement(v1, c1, render).value) == Fingerprint(sha256, MapElement(v2, c2, render).value)
  {
  }

  /** Elements with the same truthy string `cveID` share a fingerprint. */
  lemma SameIdSameFingerprint(sha256: string -> string, v1: Value, v2: Value, c1: string, c2: string,
                              render: Value -> string)
    requires v1.Obj? && v2.Obj?
    requires Field(v1.fields, "cveID").Str? && Truthy(Field(v1.fields, "cveID"))
    requires Field(v1.fields, "cveID") == Field(v2.fields, "cveID")
    ensures Fingerprint(sha256, MapElement(v1, c1, render).value) == Fingerprint(sha256, MapElement(v2, c2, render).value)
  {
  }

  /** With a `repr` that never prints nothing, every title is non-empty. */
  lemma TitleNonEmpty(v: Value, collected: string, render: Value -> string)
    requires forall w :: render(w) != ""
    requires v.Obj?
    ensures MapElement(v, collected, render).value.title != ""
  {
    var cve := Field(v.fields, "cveID");
    if Truthy(cve) {
      TruthyToStrNonEmpty(cve, render);
    }
  }
}

=== FILE: models.dfy ===
/** The normalised record every collector produces (`BaseItem` and its three
    frozen dataclass variants) and its fingerprint, the sole deduplication key. */
module Models {
  import opened Wrappers
  import opened Json

  /** `ItemKind`: the three tags a record may carry. */
  datatype Kind = VulnKind | IocKind | NewsKind

  /** The text stored in the `kind` column and hashed into the fingerprint. */
  function Tag(k: Kind): string {
    match k
    case VulnKind => "vuln"
    case IocKind => "ioc"
    case NewsKind => "news"
  }

  /** Reads a `kind` column back; only the three tags are kinds. */
  function KindOf(tag: string): (k: Option<Kind>)
    ensures k.Some? <==> tag in {"vuln", "ioc", "news"}
    ensures k.Some? ==> Tag(k.value) == tag
  {
    if tag == "vuln" then Some(VulnKind)
    else if tag == "ioc" then Some(IocKind)
    else if tag == "news" then Some(NewsKind)
    else None
  }

  /** Every kind is written as one of the three tags and reads back as itself. */
  lemma TagRoundTrip(k: Kind)
    ensures Tag(k) in {"vuln", "ioc", "news"}
    ensures KindOf(Tag(k)) == Some(k)
  {
  }

  /** A record. Datatype values are immutable, as the frozen dataclasses are;
      the variant-specific fields default to None when not supplied. */
  datatype Item =
    | Vulnerability(kind: Kind, source: string, sourceId: string, title: string,
                    url: Option<string>, publishedAt: Option<string>, collectedAt: string, raw: Value,
                    cve: Option<string> := None, vendor: Option<string> := None,
                    product: Option<string> := None, severity: Option<string> := None)
    | Ioc(kind: Kind, source: string, sourceId: string, title: string,
          url: Option<string>, publishedAt: Option<string>, collectedAt: string, raw: Value,
          indicator: Option<string> := None, iocType: Option<string> := None)
    | NewsItem(kind: Kind, source: string, sourceId: string, title: string,
               url: Option<string>, publishedAt: Option<string>, collectedAt: string, raw: Value,
               summary: Option<string> := None)

  /** The variant-specific fields are None when a record is built without them. */
  lemma VariantFieldsDefaultToNone(k: Kind, src: string, id: string, t: string, u: Option<string>,
                                   p: Option<string>, c: string, raw: Value)
    ensures var v := Vulnerability(k, src, id, t, u, p, c, raw);
      v.cve == None && v.vendor == None && v.product == None && v.severity == None
    ensures var i := Ioc(k, src, id, t, u, p, c, raw); i.indicator == None && i.iocType == None
    ensures NewsItem(k, src, id, t, u, p, c, raw).summary == None
  {
  }

  /** The text that is hashed: `f"{kind}:{source}:{source_id}"`. */
  function Preimage(kind: Kind, source: string, sourceId: string): string {
    Tag(kind) + ":" + source + ":" + sourceId
  }

  /** `BaseItem.fingerprint()`. SHA-256 is the parameter `sha256`, so every
      property below holds whatever hash function is used. */
  function Fingerprint(sha256: string -> string, it: Item): string {
    sha256(Preimage(it.kind, it.source, it.sourceId))
  }

  /** Two records with the same (kind, source, source_id) have the same
      fingerprint, however their titles, urls, timestamps and payloads differ. */
  lemma FingerprintIgnoresContent(sha256: string -> string, a: Item, b: Item)
    requires a.kind == b.kind && a.source == b.source && a.sourceId == b.sourceId
    ensures Fingerprint(sha256, a) == Fingerprint(sha256, b)
  {
  }

  /** The fingerprint is the hash of the preimage string alone. */
  lemma FingerprintOfPreimage(sha256: string -> string, a: Item, b: Item)
    requires Preimage(a.kind, a.source, a.sourceId) == Preimage(b.kind, b.source, b.sourceId)
    ensures Fingerprint(sha256, a) == Fingerprint(sha256, b)
  {
  }

  /** The index of the first colon of `s`, or `|s|` when there is none. */
  function FirstColon(s: string): (n: nat)
    ensures n <= |s|
    decreases |s|
  {
    if s == [] then 0 else if s[0] == ':' then 0 else 1 + FirstColon(s[1..])
  }

  lemma {:induction false} FirstColonOfJoin(x: string, y: string)
    requires ':' !in x
    ensures FirstColon(x + ":" + y) == |x|
    decreases |x|
  {
    if x != [] {
      assert (x + ":" + y)[1..] == x[1..] + ":" + y;
      FirstColonOfJoin(x[1..], y);
    }
  }

  /** Cutting `x + ":" + y` at its first colon recovers `x` and `y`. */
  lemma SplitAtColon(x1: string, y1: string, x2: string, y2: string)
    requires ':' !in x1 && ':' !in x2
    requires x1 + ":" + y1 == x2 + ":" + y2
    ensures x1 == x2 && y1 == y2
  {
    var s := x1 + ":" + y1;
    FirstColonOfJoin(x1, y1);
    FirstColonOfJoin(x2, y2);
    assert x1 == s[..|x1|] == x2;
    assert y1 == s[|x1| + 1..] == y2;
  }

  /** When sources contain no colon, equal preimages mean equal identities:
      the fingerprint then only merges records with the same
      (kind, source, source_id), up to collisions of the hash itself. */
  lemma {:induction false} PreimageInjective(k1: Kind, src1: string, id1: string,
                                             k2: Kind, src2: string, id2: string)
    requires ':' !in src1 && ':' !in src2
    requires Preimage(k1, src1, id1) == Preimage(k2, src2, id2)
    ensures k1 == k2 && src1 == src2 && id1 == id2
  {
    assert Preimage(k1, src1, id1) == Tag(k1) + ":" + (src1 + ":" + id1);
    assert Preimage(k2, src2, id2) == Tag(k2) + ":" + (src2 + ":" + id2);
    SplitAtColon(Tag(k1), src1 + ":" + id1, Tag(k2), src2 + ":" + id2);
    SplitAtColon(src1, id1, src2, id2);
    TagRoundTrip(k1);
    TagRoundTrip(k2);
  }

  /** The separator is not escaped: a colon inside `source` lets two
      different identities share one preimage, hence one fingerprint. */
  lemma PreimageAmbiguousWithColonInSource()
    ensures Preimage(VulnKind, "a:b", "c") == Preimage(VulnKind, "a", "b:c")
  {
  }
}

=== FILE: nvd.dfy ===
/** The NVD CVE API 2.0 collector (`NvdCveCollector`): the time window, the
    description and severity choices, the per-item mapping to a
    Vulnerability, and the `startIndex` pagination loop. The HTTP session is
    the parameter `server`, the wall clock the parameters `nowMicros` and
    `collected`, and `time.sleep` is counted, not performed. */
module Nvd {
  import opened Wrappers
  import opened Json
  import opened Models
  import Text
  import opened Paging

  const Endpoint := "https://services.nvd.nist.gov/rest/json/cves/2.0"
  const DetailPrefix := "https://nvd.nist.gov/vuln/detail/"
  const SourceName := "nvd_cves"
  const TitleLimit := 180
  const DefaultResultsPerPage := 2000
  const MicrosPerSecond := 1_000_000
  const MicrosPerDay := 86_400_000_000

  /** The metric families `_extract_severity` consults, in precedence order. */
  const SeverityKeys: seq<string> := ["cvssMetricV40", "cvssMetricV4", "cvssMetricV31", "cvssMetricV30", "cvssMetricV2"]

  /** The keys the "lite" raw payload keeps. */
  const LiteKeys: set<string> := {"id", "published", "lastModified", "descriptions", "references", "metrics", "weaknesses"}

  // ---------------------------------------------------------------- configuration

  /** The collector's settings after `__init__`. */
  datatype Config = Config(apiKey: string, window: string, resultsPerPage: int, liteRaw: bool)

  /** `__init__`: the API key is stripped and an unknown window becomes "day". */
  function NewConfig(apiKey: string, window: string := "day", resultsPerPage: int := DefaultResultsPerPage,
                     liteRaw: bool := true): (c: Config)
    ensures c.apiKey == Text.Strip(apiKey)
    ensures c.window in {"day", "week", "month"}
    ensures window in {"day", "week", "month"} ==> c.window == window
    ensures window !in {"day", "week", "month"} ==> c.window == "day"
    ensures c.resultsPerPage == resultsPerPage && c.liteRaw == liteRaw
  {
    Config(Text.Strip(apiKey), if window in {"day", "week", "month"} then window else "day",
           resultsPerPage, liteRaw)
  }

  /** The lookback of `_window_range`: one day, one week or thirty days. */
  function LookbackDays(window: string): (d: nat)
    ensures d in {1, 7, 30}
    ensures window == "day" ==> d == 1
    ensures window == "week" ==> d == 7
    ensures window != "day" && window != "week" ==> d == 30
  {
    if window == "day" then 1 else if window == "week" then 7 else 30
  }

  /** `.replace(microsecond=0)`: the instant truncated to its second. */
  function FloorToSecond(t: int): (r: int)
    ensures r <= t < r + MicrosPerSecond
    ensures r % MicrosPerSecond == 0
  {
    t - t % MicrosPerSecond
  }

  lemma FloorShift(t: int, days: nat)
    ensures FloorToSecond(t - days * MicrosPerDay) == FloorToSecond(t) - days * MicrosPerDay
  {
    var d := days * 86_400;
    assert days * MicrosPerDay == d * MicrosPerSecond;
    var q := t / MicrosPerSecond;
    var m := t % MicrosPerSecond;
    assert t - days * MicrosPerDay == (q - d) * MicrosPerSecond + m;
    assert (t - days * MicrosPerDay) % MicrosPerSecond == m;
  }

  /** `_window_range()` in microseconds since the epoch: the pair
      (pubStartDate, pubEndDate), each cut to the second, spans exactly the
      lookback and ends at the second that holds `nowMicros`. */
  function WindowRange(window: string, nowMicros: int): (r: (int, int))
    ensures r.1 <= nowMicros < r.1 + MicrosPerSecond
    ensures r.1 - r.0 == LookbackDays(window) * MicrosPerDay
    ensures r.0 % MicrosPerSecond == 0 && r.1 % MicrosPerSecond == 0
  {
    var days := LookbackDays(window);
    FloorShift(nowMicros, days);
    (FloorToSecond(nowMicros - days * MicrosPerDay), FloorToSecond(nowMicros))
  }

  // ---------------------------------------------------------------- descriptions

  /** An entry `_first_text` can return: a dict whose `value` is a string
      that is not blank and, when `preferredOnly`, whose `lang` is "es" or
      "en" (either one; neither is preferred to the other). */
  predicate Usable(d: Value, preferredOnly: bool) {
    && d.Obj?
    && (preferredOnly ==> Field(d.fields, "lang") == Str("es") || Field(d.fields, "lang") == Str("en"))
    && Field(d.fields, "value").Str?
    && !Text.IsBlank(Field(d.fields, "value").s)
  }

  /** The stripped `value` of a usable entry. */
  function StrippedValue(d: Value): string
    requires Usable(d, false)
  {
    Text.Strip(Field(d.fields, "value").s)
  }

  /** The position of the first usable entry at or after `from`, or `|ds|`. */
  function FirstUsable(ds: seq<Value>, preferredOnly: bool, from: nat): (i: nat)
    requires from <= |ds|
    ensures from <= i <= |ds|
    ensures forall j :: from <= j < i ==> !Usable(ds[j], preferredOnly)
    ensures i < |ds| ==> Usable(ds[i], preferredOnly)
    decreases |ds| - from
  {
    if from == |ds| || Usable(ds[from], preferredOnly) then from
    else FirstUsable(ds, preferredOnly, from + 1)
  }

  /** An entry that is usable with none usable before it is the one
      `FirstUsable` finds. */
  lemma FirstUsableIsFirst(ds: seq<Value>, preferredOnly: bool)
    ensures forall i :: 0 <= i < |ds| && Usable(ds[i], preferredOnly)
                        && (forall j :: 0 <= j < i ==> !Usable(ds[j], preferredOnly))
                        ==> FirstUsable(ds, preferredOnly, 0) == i
  {
    var k := FirstUsable(ds, preferredOnly, 0);
    forall i | 0 <= i < |ds| && Usable(ds[i], preferredOnly) && (forall j :: 0 <= j < i ==> !Usable(ds[j], preferredOnly))
      ensures k == i
    {
      if k != i {
        assert false;
      }
    }
  }

  /** `_first_text(descriptions)`: the first usable "es"/"en" entry in list
      order, else the first usable entry of any language, else "". Anything
      but a list gives "". */
  function FirstText(descriptions: Value): (r: string)
    ensures !descriptions.List? ==> r == ""
    ensures descriptions.List? ==>
      (r == "" <==> forall j :: 0 <= j < |descriptions.items| ==> !Usable(descriptions.items[j], false))
    ensures descriptions.List? ==>
      forall i :: 0 <= i < |descriptions.items| && Usable(descriptions.items[i], true)
                  && (forall j :: 0 <= j < i ==> !Usable(descriptions.items[j], true))
                  ==> r == StrippedValue(descriptions.items[i])
    ensures descriptions.List? && (forall j :: 0 <= j < |descriptions.items| ==> !Usable(descriptions.items[j], true)) ==>
      forall i :: 0 <= i < |descriptions.items| && Usable(descriptions.items[i], false)
                  && (forall j :: 0 <= j < i ==> !Usable(descriptions.items[j], false))
                  ==> r == StrippedValue(descriptions.items[i])
  {
    if !descriptions.List? then ""
    else
      var ds := descriptions.items;
      FirstUsableIsFirst(ds, true);
      FirstUsableIsFirst(ds, false);
      var i := FirstUsable(ds, true, 0);
      if i < |ds| then StrippedValue(ds[i])
      else
        var k := FirstUsable(ds, false, 0);
        if k < |ds| then StrippedValue(ds[k]) else ""
  }

  /** The first "es" or "en" entry wins in list order: English first in the
      list is returned even when Spanish follows. */
  lemma FirstTextTakesListOrder()
    ensures FirstText(List([Obj(map["lang" := Str("en"), "value" := Str("Overflow")]),
                            Obj(map["lang" := Str("es"), "value" := Str("Desbordamiento")])]))
         == "Overflow"
  {
    var ds := [Obj(map["lang" := Str("en"), "value" := Str("Overflow")]),
               Obj(map["lang" := Str("es"), "value" := Str("Desbordamiento")])];
    Text.StripKeepsUnpadded("Overflow");
    assert Usable(ds[0], true);
  }

  // ---------------------------------------------------------------- severity

  /** One metric family: when `metrics.get(key)` is a non-empty list, the
      `baseSeverity` of `arr[0] or {}` if it is a non-empty string. Only
      element 0 is looked at. */
  function Probe(metrics: Value, key: string): (r: Result<Option<string>>)
    ensures !metrics.Obj? ==> r == Err(NoGetAttribute(metrics))
    ensures metrics.Obj? && !HasEntries(Field(metrics.fields, key)) ==> r == Ok(None)
    ensures metrics.Obj? && HasEntries(Field(metrics.fields, key)) ==>
      var head := Field(metrics.fields, key).items[0];
      && (r.Err? <==> Truthy(head) && !head.Obj?)
      && (r.Ok? && r.value.Some? <==>
            head.Obj? && Field(head.fields, "baseSeverity").Str? && Field(head.fields, "baseSeverity").s != "")
      && (r.Ok? && r.value.Some? ==> r.value.value == Field(head.fields, "baseSeverity").s)
  {
    var arr :- Get(metrics, key);
    if arr.List? && |arr.items| > 0 then
      var sev :- Get(Or(arr.items[0], EmptyObj), "baseSeverity");
      Ok(if sev.Str? && sev.s != "" then Some(sev.s) else None)
    else Ok(None)
  }

  /** The first family in `keys` that yields a severity, or raises. */
  function FirstSeverity(metrics: Value, keys: seq<string>): (r: Result<Option<string>>)
    ensures r == Ok(None) <==> forall i :: 0 <= i < |keys| ==> Probe(metrics, keys[i]) == Ok(None)
    ensures r != Ok(None) ==> exists i :: 0 <= i < |keys| && Probe(metrics, keys[i]) == r
                                         && forall j :: 0 <= j < i ==> Probe(metrics, keys[j]) == Ok(None)
    decreases |keys|
  {
    if keys == [] then Ok(None)
    else
      var p := Probe(metrics, keys[0]);
      if p != Ok(None) then p
      else
        var r := FirstSeverity(metrics, keys[1..]);
        assert forall i :: 1 <= i < |keys| ==> keys[i] == keys[1..][i - 1];
        if r != Ok(None) then
          var i :| 0 <= i < |keys[1..]| && Probe(metrics, keys[1..][i]) == r
                   && forall j :: 0 <= j < i ==> Probe(metrics, keys[1..][j]) == Ok(None);
          assert Probe(metrics, keys[i + 1]) == r;
          r
        else r
  }

  /** Precedence: the first family that yields a severity (or raises)
      decides, whatever the later families hold. */
  lemma SeverityPrecedence(metrics: Value, keys: seq<string>, i: nat)
    requires i < |keys|
    requires forall j :: 0 <= j < i ==> Probe(metrics, keys[j]) == Ok(None)
    requires Probe(metrics, keys[i]) != Ok(None)
    ensures FirstSeverity(metrics, keys) == Probe(metrics, keys[i])
  {
    var r := FirstSeverity(metrics, keys);
    var k :| 0 <= k < |keys| && Probe(metrics, keys[k]) == r
             && forall j :: 0 <= j < k ==> Probe(metrics, keys[j]) == Ok(None);
    if k != i {
      assert false;
    }
  }

  /** `_extract_severity(cve_obj)`: `metrics = cve_obj.get("metrics") or {}`
      and the families in the order v4.0, v4, v3.1, v3.0, v2. */
  function ExtractSeverity(cveObj: Value): (r: Result<Option<string>>)
    ensures !cveObj.Obj? ==> r == Err(NoGetAttribute(cveObj))
    ensures cveObj.Obj? && !Truthy(Field(cveObj.fields, "metrics")) ==> r == Ok(None)
    ensures cveObj.Obj? && Truthy(Field(cveObj.fields, "metrics")) ==>
      r == FirstSeverity(Field(cveObj.fields, "metrics"), SeverityKeys)
  {
    assert forall i :: 0 <= i < |SeverityKeys| ==> Probe(EmptyObj, SeverityKeys[i]) == Ok(None);
    var m :- Get(cveObj, "metrics");
    FirstSeverity(Or(m, EmptyObj), SeverityKeys)
  }

  /** A metric list whose element carries `baseSeverity`. */
  function Metric(severity: string): Value {
    List([Obj(map["baseSeverity" := Str(severity)])])
  }

  /** A family the metrics do not list yields nothing. */
  lemma ProbeAbsent(metrics: Value, key: string)
    requires metrics.Obj? && key !in metrics.fields
    ensures Probe(metrics, key) == Ok(None)
  {
  }

  /** A family whose first element is a dict is read from that element. */
  lemma ProbeHead(metrics: Value, key: string, head: map<string, Value>)
    requires metrics.Obj? && key in metrics.fields
    requires metrics.fields[key].List? && |metrics.fields[key].items| > 0 && metrics.fields[key].items[0] == Obj(head)
    ensures "baseSeverity" !in head ==> Probe(metrics, key) == Ok(None)
    ensures "baseSeverity" in head && head["baseSeverity"].Str? && head["baseSeverity"].s != "" ==>
      Probe(metrics, key) == Ok(Some(head["baseSeverity"].s))
  {
  }

  /** A non-empty `metrics` dict is searched as it stands. */
  lemma ExtractFrom(metrics: Value)
    requires metrics.Obj? && metrics.fields != map[]
    ensures ExtractSeverity(Obj(map["metrics" := metrics])) == FirstSeverity(metrics, SeverityKeys)
  {
    assert Get(Obj(map["metrics" := metrics]), "metrics") == Ok(metrics);
    assert Or(metrics, EmptyObj) == metrics;
  }

  /** Without a v4 rating, a v3.1 rating is returned, whatever the v3.0 and
      v2 families hold. */
  lemma V31BeatsV2(metrics: map<string, Value>, high: string)
    requires SeverityKeys[0] !in metrics && SeverityKeys[1] !in metrics
    requires SeverityKeys[2] in metrics && metrics[SeverityKeys[2]] == Metric(high) && high != ""
    ensures ExtractSeverity(Obj(map["metrics" := Obj(metrics)])) == Ok(Some(high))
  {
    var m := Obj(metrics);
    ExtractFrom(m);
    forall j | 0 <= j < 2 ensures Probe(m, SeverityKeys[j]) == Ok(None) {
      ProbeAbsent(m, SeverityKeys[j]);
    }
    ProbeHead(m, SeverityKeys[2], map["baseSeverity" := Str(high)]);
    SeverityPrecedence(m, SeverityKeys, 2);
  }

  /** The families before v2 yield nothing when v3.1 starts with `{}`. */
  lemma EmptyHeadSilent(metrics: map<string, Value>, later: seq<Value>)
    requires SeverityKeys[0] !in metrics && SeverityKeys[1] !in metrics && SeverityKeys[3] !in metrics
    requires SeverityKeys[2] in metrics && metrics[SeverityKeys[2]] == List([EmptyObj] + later)
    ensures forall j :: 0 <= j < 4 ==> Probe(Obj(metrics), SeverityKeys[j]) == Ok(None)
  {
    var m := Obj(metrics);
    forall j | 0 <= j < 4 ensures Probe(m, SeverityKeys[j]) == Ok(None) {
      if j == 2 {
        ProbeHead(m, SeverityKeys[2], map[]);
      } else if j == 3 {
        ProbeAbsent(m, SeverityKeys[3]);
      } else {
        ProbeAbsent(m, SeverityKeys[j]);
      }
    }
  }

  /** Only `arr[0]` is consulted: when the first v3.1 element has no
      `baseSeverity`, the later elements are ignored and the next family,
      here v2, decides. */
  lemma OnlyFirstElementCounts(metrics: map<string, Value>, later: seq<Value>, low: string)
    requires SeverityKeys[0] !in metrics && SeverityKeys[1] !in metrics && SeverityKeys[3] !in metrics
    requires SeverityKeys[2] in metrics && metrics[SeverityKeys[2]] == List([EmptyObj] + later)
    requires SeverityKeys[4] in metrics && metrics[SeverityKeys[4]] == Metric(low) && low != ""
    ensures ExtractSeverity(Obj(map["metrics" := Obj(metrics)])) == Ok(Some(low))
  {
    var m := Obj(metrics);
    ExtractFrom(m);
    EmptyHeadSilent(metrics, later);
    ProbeHead(m, SeverityKeys[4], map["baseSeverity" := Str(low)]);
    SeverityPrecedence(m, SeverityKeys, 4);
  }

  // ---------------------------------------------------------------- one item

  /** The untruncated title: `f"{cve_id} - {desc}"`, or the id alone. */
  function FullTitle(id: string, desc: string): string {
    if desc != "" then id + " - " + desc else id
  }

  /** The stored title: the full title when it fits in 180 characters,
      otherwise its first 177 characters followed by "...". */
  function MakeTitle(id: string, desc: string): (t: string)
    ensures |t| <= TitleLimit
    ensures t == FullTitle(id, desc) <==> |FullTitle(id, desc)| <= TitleLimit
    ensures t != FullTitle(id, desc) ==>
      |t| == TitleLimit && t[..177] == FullTitle(id, desc)[..177] && t[177..] == "..."
  {
    var full := FullTitle(id, desc);
    if |full| > TitleLimit then full[..177] + "..." else full
  }

  /** `published` when it is a string, else `lastModified` when it is, else None. */
  function PublishedAt(published: Value, lastModified: Value): (r: Option<string>)
    ensures r.Some? <==> published.Str? || lastModified.Str?
    ensures published.Str? ==> r == Some(published.s)
    ensures !published.Str? && lastModified.Str? ==> r == Some(lastModified.s)
  {
    if published.Str? then Some(published.s)
    else if lastModified.Str? then Some(lastModified.s)
    else None
  }

  /** The "lite" raw payload: exactly seven keys, `id` and six fields of the
      CVE object copied as they are (None when absent). */
  function LiteRaw(id: string, cve: map<string, Value>): (raw: Value)
    ensures raw.Obj? && raw.fields.Keys == LiteKeys
    ensures raw.fields["id"] == Str(id)
    ensures forall k :: k in LiteKeys && k != "id" ==> raw.fields[k] == Field(cve, k)
  {
    Obj(map["id" := Str(id),
            "published" := Field(cve, "published"),
            "lastModified" := Field(cve, "lastModified"),
            "descriptions" := Field(cve, "descriptions"),
            "references" := Field(cve, "references"),
            "metrics" := Field(cve, "metrics"),
            "weaknesses" := Field(cve, "weaknesses")])
  }

  /** `(item or {}).get("cve") or {}`. */
  function CveObject(item: Value): Result<Value> {
    var c :- Get(Or(item, EmptyObj), "cve");
    Ok(Or(c, EmptyObj))
  }

  /** The id filter: a string starting with "CVE-"; nothing else is checked. */
  predicate IsCveId(v: Value) {
    v.Str? && Text.StartsWith(v.s, "CVE-")
  }

  /** What every record of this collector looks like. */
  predicate IsNvdRecord(it: Item, collected: string) {
    && it.Vulnerability?
    && it.kind == VulnKind
    && it.source == SourceName
    && Text.StartsWith(it.sourceId, "CVE-")
    && it.cve == Some(it.sourceId)
    && it.url == Some(DetailPrefix + it.sourceId)
    && |it.title| <= TitleLimit
    && it.vendor == None && it.product == None
    && it.collectedAt == collected
  }

  /** The item passes the id filter: its CVE object is a dict whose `id`
      is a string starting with "CVE-". */
  predicate HasCveId(item: Value) {
    CveObject(item).Ok? && CveObject(item).value.Obj? && IsCveId(Field(CveObject(item).value.fields, "id"))
  }

  /** The body of the `for item in vulns` loop: None for an item the id
      filter skips, an exception when a lookup raises. An item that passes
      the filter is kept whenever its severity lookup does not raise. */
  function MapItem(item: Value, collected: string, liteRaw: bool): (r: Result<Option<Item>>)
    ensures r == Ok(None) <==> CveObject(item).Ok? && CveObject(item).value.Obj?
                               && !IsCveId(Field(CveObject(item).value.fields, "id"))
    ensures r.Ok? && r.value.Some? <==> HasCveId(item) && ExtractSeverity(CveObject(item).value).Ok?
    ensures r.Ok? && r.value.Some? ==>
      var cve := CveObject(item).value.fields;
      var id := Field(cve, "id").s;
      var it := r.value.value;
      && IsNvdRecord(it, collected)
      && it.sourceId == id
      && it.title == MakeTitle(id, FirstText(Field(cve, "descriptions")))
      && it.publishedAt == PublishedAt(Field(cve, "published"), Field(cve, "lastModified"))
      && it.raw == (if liteRaw then LiteRaw(id, cve) else item)
      && ExtractSeverity(CveObject(item).value) == Ok(it.severity)
  {
    var cveObj :- CveObject(item);
    var idv :- Get(cveObj, "id");
    if !IsCveId(idv) then Ok(None)
    else
      var id := idv.s;
      var fields := cveObj.fields;
      var sev :- ExtractSeverity(cveObj);
      var raw := if liteRaw then LiteRaw(id, fields) else item;
      Ok(Some(Vulnerability(VulnKind, SourceName, id, MakeTitle(id, FirstText(Field(fields, "descriptions"))),
                            Some(DetailPrefix + id),
                            PublishedAt(Field(fields, "published"), Field(fields, "lastModified")),
                            collected, raw, Some(id), None, None, sev)))
  }

  /** The records `f` keeps from `items`, in item order, when none raises. */
  function Kept(f: Value -> Result<Option<Item>>, items: seq<Value>): seq<Item>
    requires forall i :: 0 <= i < |items| ==> f(items[i]).Ok?
    decreases |items|
  {
    if items == [] then []
    else
      assert forall i :: 0 <= i < |items[1..]| ==> items[1..][i] == items[i + 1];
      (if f(items[0]).value.Some? then [f(items[0]).value.value] else []) + Kept(f, items[1..])
  }

  /** What is kept from two runs of items is what is kept from each, in order. */
  lemma {:induction false} KeptSplit(f: Value -> Result<Option<Item>>, a: seq<Value>, b: seq<Value>)
    requires forall i :: 0 <= i < |a| ==> f(a[i]).Ok?
    requires forall i :: 0 <= i < |b| ==> f(b[i]).Ok?
    ensures forall i :: 0 <= i < |a + b| ==> f((a + b)[i]).Ok?
    ensures Kept(f, a + b) == Kept(f, a) + Kept(f, b)
    decreases |a|
  {
    assert forall i :: 0 <= i < |a + b| ==> (a + b)[i] == if i < |a| then a[i] else b[i - |a|];
    if a != [] {
      var x := f(a[0]).value;
      assert Kept(f, a + b) == (if x.Some? then [x.value] else []) + Kept(f, (a + b)[1..]);
      assert Kept(f, a) == (if x.Some? then [x.value] else []) + Kept(f, a[1..]);
      assert (a + b)[1..] == a[1..] + b;
      assert forall i :: 0 <= i < |a[1..]| ==> a[1..][i] == a[i + 1];
      KeptSplit(f, a[1..], b);
    } else {
      assert a + b == b;
    }
  }

  /** A loop over `items` that keeps what `f` returns, in order, and stops
      at the first item that raises. */
  function Collect(f: Value -> Result<Option<Item>>, items: seq<Value>): (r: Result<seq<Item>>)
    ensures r.Ok? <==> forall i :: 0 <= i < |items| ==> f(items[i]).Ok?
    ensures r.Ok? ==> |r.value| <= |items|
    ensures r.Ok? ==> r.value == Kept(f, items)
    decreases |items|
  {
    if items == [] then Ok([])
    else
      var first :- f(items[0]);
      var rest := Collect(f, items[1..]);
      assert forall i :: 1 <= i < |items| ==> items[i] == items[1..][i - 1];
      if rest.Err? then rest
      else
        Ok(match first case Some(v) => [v] + rest.value case None => rest.value)
  }

  /** Every kept record is what `f` returned for one of the items. */
  lemma {:induction false} CollectFrom(f: Value -> Result<Option<Item>>, items: seq<Value>)
    ensures var r := Collect(f, items);
      r.Ok? ==> forall k :: 0 <= k < |r.value| ==> exists i :: 0 <= i < |items| && f(items[i]) == Ok(Some(r.value[k]))
    decreases |items|
  {
    if items != [] && f(items[0]).Ok? {
      CollectFrom(f, items[1..]);
      assert forall i :: 1 <= i < |items| ==> items[i] == items[1..][i - 1];
    }
  }

  /** `MapItem` as the body of a loop. */
  function ItemMapper(collected: string, liteRaw: bool): Value -> Result<Option<Item>> {
    x => MapItem(x, collected, liteRaw)
  }

  /** The whole `for item in vulns` loop: the kept records in order; the
      first raising item aborts the page. */
  function MapItems(items: seq<Value>, collected: string, liteRaw: bool): (r: Result<seq<Item>>)
    ensures r.Ok? <==> forall i :: 0 <= i < |items| ==> MapItem(items[i], collected, liteRaw).Ok?
    ensures r.Ok? ==> |r.value| <= |items|
    ensures r.Ok? ==> r.value == Kept(ItemMapper(collected, liteRaw), items)
    ensures r.Ok? ==> AllNvd(r.value, collected)
  {
    var f := ItemMapper(collected, liteRaw);
    var r := Collect(f, items);
    CollectFrom(f, items);
    assert r.Ok? ==> forall k :: 0 <= k < |r.value| ==> IsNvdRecord(r.value[k], collected) by {
      if r.Ok? {
        forall k | 0 <= k < |r.value| ensures IsNvdRecord(r.value[k], collected) {
          var i :| 0 <= i < |items| && f(items[i]) == Ok(Some(r.value[k]));
        }
      }
    }
    r
  }

  /** An item whose record is kept sits between the records of the items
      before it and those of the items after it. */
  lemma {:induction false} KeptAt(f: Value -> Result<Option<Item>>, items: seq<Value>, i: nat, v: Item)
    requires forall k :: 0 <= k < |items| ==> f(items[k]).Ok?
    requires i < |items| && f(items[i]) == Ok(Some(v))
    ensures Kept(f, items) == Kept(f, items[..i]) + [v] + Kept(f, items[i + 1..])
    decreases i
  {
    if i == 0 {
      assert items[..0] == [];
    } else {
      var tail := items[1..];
      assert forall k :: 0 <= k < |tail| ==> tail[k] == items[k + 1];
      KeptAt(f, tail, i - 1, v);
      assert tail[..i - 1] == items[..i][1..];
      assert tail[i..] == items[i + 1..];
    }
  }

  /** On a page that maps without error, every item passing the id filter
      is kept: its record sits after those of the items before it and
      before those of the items after it. */
  lemma CveItemKept(items: seq<Value>, collected: string, liteRaw: bool, i: nat)
    requires MapItems(items, collected, liteRaw).Ok?
    requires i < |items| && HasCveId(items[i])
    ensures MapItem(items[i], collected, liteRaw).Ok? && MapItem(items[i], collected, liteRaw).value.Some?
    ensures var f := ItemMapper(collected, liteRaw);
      MapItems(items, collected, liteRaw).value
        == Kept(f, items[..i]) + [MapItem(items[i], collected, liteRaw).value.value] + Kept(f, items[i + 1..])
  {
    var f := ItemMapper(collected, liteRaw);
    assert forall k :: 0 <= k < |items| ==> f(items[k]).Ok?;
    var r := MapItem(items[i], collected, liteRaw);
    assert r.Ok? && r.value.Some?;
    KeptAt(f, items, i, r.value.value);
  }

  // ---------------------------------------------------------------- pages

  /** A `vulnerabilities` value the loop iterates over: a non-empty list. */
  predicate HasEntries(v: Value) {
    v.List? && |v.items| > 0
  }

  /** One response body: `vulnerabilities` (an empty or non-list value ends
      the loop), then `resultsPerPage` if it is an int, else `len(vulns)`. */
  function ReadPage(data: Value, collected: string, liteRaw: bool): (r: Result<Page<Item>>)
    ensures r.Ok? ==> data.Obj?
    ensures data.Obj? && !HasEntries(Field(data.fields, "vulnerabilities")) ==> r.Ok? && r.value.empty
    ensures data.Obj? && HasEntries(Field(data.fields, "vulnerabilities")) ==>
      && (r.Ok? <==> MapItems(Field(data.fields, "vulnerabilities").items, collected, liteRaw).Ok?)
      && (r.Ok? ==> !r.value.empty)
    ensures r.Ok? && r.value.empty ==> r.value.records == []
    ensures r.Ok? && !r.value.empty ==>
      && HasEntries(Field(data.fields, "vulnerabilities"))
      && MapItems(Field(data.fields, "vulnerabilities").items, collected, liteRaw) == Ok(r.value.records)
      && r.value.total == AsInt(Field(data.fields, "totalResults"))
      && r.value.advance == AsInt(Field(data.fields, "resultsPerPage")).GetOr(|Field(data.fields, "vulnerabilities").items|)
      && AllNvd(r.value.records, collected)
  {
    var v :- Get(data, "vulnerabilities");
    var vulns := Or(v, List([]));
    if !vulns.List? || |vulns.items| == 0 then Ok(Page([], true, 0, None))
    else
      var records :- MapItems(vulns.items, collected, liteRaw);
      var total := Field(data.fields, "totalResults");
      var returned := Field(data.fields, "resultsPerPage");
      Ok(Page(records, false, AsInt(returned).GetOr(|vulns.items|), AsInt(total)))
  }

  /** The query parameters of one request; the dates are in microseconds. */
  datatype Request = Request(resultsPerPage: int, startIndex: int, pubStart: int, pubEnd: int)

  /** Everything fixed for one `fetch`: settings, the HTTP exchange (response
      body or a raised error), the window and the collection timestamp. */
  datatype Session = Session(cfg: Config, server: Request -> Result<Value>, range: (int, int), collected: string)

  /** Request and read the page at `start`. */
  function PageAt(ses: Session, start: int): Result<Page<Item>> {
    var data :- ses.server(Request(ses.cfg.resultsPerPage, start, ses.range.0, ses.range.1));
    ReadPage(data, ses.collected, ses.cfg.liteRaw)
  }

  /** Every record satisfies `IsNvdRecord`. */
  predicate AllNvd(recs: seq<Item>, collected: string) {
    forall k :: 0 <= k < |recs| ==> IsNvdRecord(recs[k], collected)
  }

  lemma AllNvdConcat(a: seq<Item>, b: seq<Item>, collected: string)
    requires AllNvd(a, collected) && AllNvd(b, collected)
    ensures AllNvd(a + b, collected)
  {
    assert forall k :: |a| <= k < |a + b| ==> (a + b)[k] == b[k - |a|];
  }

  /** The page reader of one `fetch`. */
  function Reader(ses: Session): int -> Result<Page<Item>> {
    start => PageAt(ses, start)
  }

  /** Every record gathered from the NVD pages is a well-formed NVD record. */
  lemma {:induction false} GatheredAllNvd(ses: Session, starts: seq<int>)
    ensures AllNvd(Gathered(Reader(ses), starts), ses.collected)
    decreases |starts|
  {
    if starts != [] {
      GatheredAllNvd(ses, starts[1..]);
      var first := match PageAt(ses, starts[0]) case Ok(p) => p.records case Err(_) => [];
      AllNvdConcat(first, Gathered(Reader(ses), starts[1..]), ses.collected);
    }
  }

  /** `fetch()`: with an API key that is blank after stripping, no request
      at all and no records; otherwise the loop from `start_index = 0` over
      the configured window, every record stamped with `collected`. */
  function Fetch(cfg: Config, server: Request -> Result<Value>, nowMicros: int, collected: string, fuel: nat): (c: Crawl<Item>)
    ensures cfg.apiKey == "" ==> c == Crawl(Finished([]), [], 0)
    ensures cfg.apiKey != "" && fuel > 0 ==> |c.requests| >= 1 && c.requests[0] == 0
    ensures cfg.apiKey != "" ==>
      var read := Reader(Session(cfg, server, WindowRange(cfg.window, nowMicros), collected));
      && Chained(read, c.requests)
      && (c.outcome.Finished? ==> EndedAt(read, c.requests) && c.outcome.records == Gathered(read, c.requests))
    ensures cfg.apiKey != "" ==>
      && |c.requests| <= fuel
      && c.sleeps == (if c.outcome.Exhausted? then |c.requests| else |c.requests| - 1)
    ensures c.outcome.Finished? ==> AllNvd(c.outcome.records, collected)
  {
    if cfg.apiKey == "" then Crawl(Finished([]), [], 0)
    else
      var ses := Session(cfg, server, WindowRange(cfg.window, nowMicros), collected);
      var c := Paginate(Reader(ses), 0, fuel);
      PaginateShape(Reader(ses), 0, fuel);
      PaginateChained(Reader(ses), 0, fuel);
      PaginateEnded(Reader(ses), 0, fuel);
      PaginateGathered(Reader(ses), 0, fuel);
      GatheredAllNvd(ses, c.requests);
      c
  }
}

=== FILE: paging.dfy ===
/** The paging loop of the NVD collector's `fetch`: request the page at
    `start_index`, keep its records, stop on an empty page or once
    `start_index` reaches `totalResults`, otherwise advance by the page's
    `resultsPerPage` and sleep before the next request. The page reader
    `read` stands for one HTTP request and the decoding of its body; `R` is
    the record type. */
module Paging {
  import opened Wrappers

  /** What the loop takes from one response: the records, whether the page
      was empty (or not a list), the step for `start_index`, and
      `totalResults` when it is an int. */
  datatype Page<R> = Page(records: seq<R>, empty: bool, advance: int, total: Option<int>)

  /** The loop breaks after this page: it was empty, or `start_index` has
      reached an int `totalResults`. */
  predicate Stops<R>(page: Page<R>, start: int) {
    page.empty || (page.total.Some? && start + page.advance >= page.total.value)
  }

  datatype Outcome<R> = Finished(records: seq<R>) | Raised(error: Exception) | Exhausted

  /** One run of the loop: its outcome, the `startIndex` of every request in
      order, and how many throttle sleeps happened. */
  datatype Crawl<R> = Crawl(outcome: Outcome<R>, requests: seq<int>, sleeps: nat)


  /** The records of the pages read at `starts`, concatenated. */
  function Gathered<R>(read: int -> Result<Page<R>>, starts: seq<int>): seq<R>
    decreases |starts|
  {
    if starts == [] then []
    else (match read(starts[0]) case Ok(p) => p.records case Err(_) => [])
         + Gathered(read, starts[1..])
  }

  /** Each request but the last read a page that let the loop go on, and the
      next request starts where that page moved `start_index`. */
  predicate Chained<R>(read: int -> Result<Page<R>>, reqs: seq<int>) {
    forall i :: 0 <= i < |reqs| - 1 ==>
      && read(reqs[i]).Ok?
      && !Stops(read(reqs[i]).value, reqs[i])
      && reqs[i + 1] == reqs[i] + read(reqs[i]).value.advance
  }

  function Last(s: seq<int>): int
    requires s != []
  {
    s[|s| - 1]
  }

  /** The page read by the last request ended the loop. */
  predicate EndedAt<R>(read: int -> Result<Page<R>>, reqs: seq<int>) {
    reqs != [] && read(Last(reqs)).Ok? && Stops(read(Last(reqs)).value, Last(reqs))
  }

  lemma ChainCons<R>(read: int -> Result<Page<R>>, start: int, rest: seq<int>)
    requires read(start).Ok? && !Stops(read(start).value, start)
    requires rest != [] ==> rest[0] == start + read(start).value.advance
    requires Chained(read, rest)
    ensures Chained(read, [start] + rest)
    ensures rest != [] ==> Last([start] + rest) == Last(rest)
    ensures ([start] + rest)[0] == start
  {
    var reqs := [start] + rest;
    forall i | 0 <= i < |reqs| - 1
      ensures read(reqs[i]).Ok? && !Stops(read(reqs[i]).value, reqs[i])
              && reqs[i + 1] == reqs[i] + read(reqs[i]).value.advance
    {
      if i > 0 {
        assert reqs[i] == rest[i - 1] && reqs[i + 1] == rest[i];
      }
    }
  }

  lemma GatheredCons<R>(read: int -> Result<Page<R>>, start: int, rest: seq<int>)
    requires read(start).Ok?
    ensures Gathered(read, [start] + rest) == read(start).value.records + Gathered(read, rest)
  {
    assert ([start] + rest)[1..] == rest;
  }

  /** The `while True` loop from `start`, allowed at most `fuel` requests;
      `Exhausted` is a loop that would need more (the source's loop has no
      bound). Pages are requested strictly one after another, each at the
      previous index plus that page's advance; a sleep follows every page
      except the one that ends the loop. */
  function Paginate<R>(read: int -> Result<Page<R>>, start: int, fuel: nat): Crawl<R>
    decreases fuel
  {
    if fuel == 0 then Crawl(Exhausted, [], 0)
    else if read(start).Err? then Crawl(Raised(read(start).error), [start], 0)
    else if Stops(read(start).value, start) then Crawl(Finished(read(start).value.records), [start], 0)
    else Continue(start, read(start).value, Paginate(read, start + read(start).value.advance, fuel - 1))
  }

  /** A page that lets the loop go on, followed by the rest of the run. */
  function Continue<R>(start: int, page: Page<R>, rest: Crawl<R>): Crawl<R> {
    var outcome := if rest.outcome.Finished? then Finished(page.records + rest.outcome.records) else rest.outcome;
    Crawl(outcome, [start] + rest.requests, rest.sleeps + 1)
  }

  /** The shape of every run: at most `fuel` requests, the first at
      `start`; a run that ends used at least one request, an exhausted one
      used them all; a sleep follows every request except the one that
      ends the loop. */
  lemma {:induction false} PaginateShape<R>(read: int -> Result<Page<R>>, start: int, fuel: nat)
    ensures var c := Paginate(read, start, fuel);
      && |c.requests| <= fuel
      && (fuel > 0 ==> |c.requests| >= 1 && c.requests[0] == start)
      && (c.outcome.Exhausted? ==> |c.requests| == fuel)
      && c.sleeps == if c.outcome.Exhausted? then |c.requests| else |c.requests| - 1
    decreases fuel
  {
    var c := Paginate(read, start, fuel);
    if fuel > 0 && read(start).Ok? && !Stops(read(start).value, start) {
      var page := read(start).value;
      var rest := Paginate(read, start + page.advance, fuel - 1);
      PaginateShape(read, start + page.advance, fuel - 1);
      assert c == Continue(start, page, rest);
      assert c.requests == [start] + rest.requests;
    }
  }

  /** One page that lets the loop go on, then the loop from the next index. */
  lemma PaginateStep<R>(read: int -> Result<Page<R>>, start: int, fuel: nat)
    requires fuel > 0 && read(start).Ok? && !Stops(read(start).value, start)
    ensures var c := Paginate(read, start, fuel);
      var rest := Paginate(read, start + read(start).value.advance, fuel - 1);
      && c.requests == [start] + rest.requests
      && c.sleeps == rest.sleeps + 1
      && (rest.outcome.Finished? ==> c.outcome == Finished(read(start).value.records + rest.outcome.records))
      && (!rest.outcome.Finished? ==> c.outcome == rest.outcome)
  {
  }

  /** A page that ends the loop. */
  lemma PaginateStops<R>(read: int -> Result<Page<R>>, start: int, fuel: nat)
    requires fuel > 0 && read(start).Ok? && Stops(read(start).value, start)
    ensures Paginate(read, start, fuel) == Crawl(Finished(read(start).value.records), [start], 0)
  {
  }

  /** A request that raises ends the loop with that error. */
  lemma PaginateRaises<R>(read: int -> Result<Page<R>>, start: int, fuel: nat)
    requires fuel > 0 && read(start).Err?
    ensures Paginate(read, start, fuel) == Crawl(Raised(read(start).error), [start], 0)
  {
  }

  /** Every request but the last read a page that let the loop continue,
      and the next request starts at that page's index plus its advance. */
  lemma {:induction false} PaginateChained<R>(read: int -> Result<Page<R>>, start: int, fuel: nat)
    ensures Chained(read, Paginate(read, start, fuel).requests)
    decreases fuel
  {
    var c := Paginate(read, start, fuel);
    if fuel == 0 {
      assert c.requests == [];
    } else if read(start).Err? || Stops(read(start).value, start) {
      assert c.requests == [start];
    } else {
      var page := read(start).value;
      var rest := Paginate(read, start + page.advance, fuel - 1);
      assert c == Continue(start, page, rest);
      PaginateChained(read, start + page.advance, fuel - 1);
      PaginateShape(read, start + page.advance, fuel - 1);
      ChainCons(read, start, rest.requests);
    }
  }

  /** A finished run ended on a page that stops the loop. */
  lemma {:induction false} PaginateEnded<R>(read: int -> Result<Page<R>>, start: int, fuel: nat)
    ensures var c := Paginate(read, start, fuel);
      c.outcome.Finished? ==> EndedAt(read, c.requests)
    decreases fuel
  {
    var c := Paginate(read, start, fuel);
    if fuel == 0 {
      assert c == Crawl(Exhausted, [], 0);
    } else if read(start).Err? {
      assert c.outcome.Raised?;
    } else if Stops(read(start).value, start) {
      assert c.requests == [start];
      assert Last([start]) == start;
      assert EndedAt(read, c.requests);
    } else {
      var page := read(start).value;
      var rest := Paginate(read, start + page.advance, fuel - 1);
      assert c == Continue(start, page, rest);
      if rest.outcome.Finished? {
        PaginateEnded(read, start + page.advance, fuel - 1);
        assert c.requests == [start] + rest.requests;
        assert Last(c.requests) == Last(rest.requests);
        assert EndedAt(read, c.requests);
      } else {
        assert !c.outcome.Finished?;
      }
    }
  }

  /** A finished run returns the records of all its pages in request order. */
  lemma {:induction false} PaginateGathered<R>(read: int -> Result<Page<R>>, start: int, fuel: nat)
    ensures var c := Paginate(read, start, fuel);
      c.outcome.Finished? ==> c.outcome.records == Gathered(read, c.requests)
    decreases fuel
  {
    var c := Paginate(read, start, fuel);
    if fuel == 0 {
      assert c == Crawl(Exhausted, [], 0);
    } else if read(start).Err? {
      assert c.outcome.Raised?;
    } else if Stops(read(start).value, start) {
      assert c == Crawl(Finished(read(start).value.records), [start], 0);
      assert Gathered(read, [start]) == read(start).value.records + Gathered(read, []);
    } else {
      var page := read(start).value;
      var rest := Paginate(read, start + page.advance, fuel - 1);
      assert c == Continue(start, page, rest);
      if rest.outcome.Finished? {
        PaginateGathered(read, start + page.advance, fuel - 1);
        GatheredCons(read, start, rest.requests);
        assert c.outcome.records == page.records + rest.outcome.records;
      } else {
        assert !c.outcome.Finished?;
      }
    }
  }

  /** A raising run raised on its last request. */
  lemma {:induction false} PaginateRaised<R>(read: int -> Result<Page<R>>, start: int, fuel: nat)
    ensures var c := Paginate(read, start, fuel);
      c.outcome.Raised? ==> c.requests != [] && read(Last(c.requests)) == Err(c.outcome.error)
    decreases fuel
  {
    var c := Paginate(read, start, fuel);
    if fuel == 0 {
      assert c == Crawl(Exhausted, [], 0);
    } else if read(start).Err? {
      assert c == Crawl(Raised(read(start).error), [start], 0);
      assert Last([start]) == start;
    } else if Stops(read(start).value, start) {
      assert c.outcome.Finished?;
    } else {
      var page := read(start).value;
      var rest := Paginate(read, start + page.advance, fuel - 1);
      assert c == Continue(start, page, rest);
      if rest.outcome.Raised? {
        PaginateRaised(read, start + page.advance, fuel - 1);
        assert c.requests == [start] + rest.requests;
        assert Last(c.requests) == Last(rest.requests);
        assert c.outcome == rest.outcome;
      } else {
        assert !c.outcome.Raised?;
      }
    }
  }

  /** The number of pages of `p` results needed for `a` results: ceil(a / p). */
  function PagesFor(a: nat, p: nat): nat
    requires p > 0
    decreases a
  {
    if a == 0 then 0 else if a <= p then 1 else 1 + PagesFor(a - p, p)
  }

  /** `PagesFor` is the ceiling of the quotient. */
  lemma {:induction false} PagesForIsCeiling(a: nat, p: nat)
    requires p > 0
    ensures a <= PagesFor(a, p) * p
    ensures a > 0 ==> (PagesFor(a, p) - 1) * p < a
    decreases a
  {
    if a > p {
      PagesForIsCeiling(a - p, p);
      var n := PagesFor(a - p, p);
      assert PagesFor(a, p) * p == p + n * p;
    }
  }

  /** Full pages of a constant size P out of T results, starting at `start`:
      the loop makes exactly ceil((T - start) / P) requests, at start,
      start + P, start + 2P, ..., sleeps between them only, and finishes. */
  lemma {:induction false} UniformPaging<R>(read: int -> Result<Page<R>>, total: nat, p: nat, start: nat, fuel: nat)
    requires p > 0 && start < total
    requires forall x :: start <= x < total ==>
      && read(x).Ok?
      && !read(x).value.empty
      && read(x).value.advance == p
      && read(x).value.total == Some(total)
    requires fuel >= PagesFor(total - start, p)
    ensures var c := Paginate(read, start, fuel);
      && c.outcome.Finished?
      && |c.requests| == PagesFor(total - start, p)
      && c.sleeps == |c.requests| - 1
      && forall i :: 0 <= i < |c.requests| ==> c.requests[i] == start + i * p
    decreases total - start
  {
    var c := Paginate(read, start, fuel);
    assert read(start).Ok?;
    if start + p >= total {
      PaginateStops(read, start, fuel);
    } else {
      UniformPaging(read, total, p, start + p, fuel - 1);
      PaginateStep(read, start, fuel);
      var rest := Paginate(read, start + p, fuel - 1);
      forall i | 0 <= i < |c.requests|
        ensures c.requests[i] == start + i * p
      {
        if i > 0 {
          assert c.requests[i] == rest.requests[i - 1] == start + p + (i - 1) * p;
        }
      }
    }
  }

  /** With no results in the window the first page is empty: one request,
      no sleep, no records (not ceil(0 / P) = 0 requests). */
  lemma EmptyWindowOneRequest<R>(read: int -> Result<Page<R>>, fuel: nat)
    requires fuel > 0
    requires read(0).Ok? && read(0).value.empty && read(0).value.records == []
    ensures Paginate(read, 0, fuel) == Crawl(Finished([]), [0], 0)
  {
    PaginateStops(read, 0, fuel);
  }

  /** Every page moving `start_index` forward bounds the loop: with an int
      `totalResults` T it ends within max(1, T - start) requests. */
  lemma {:induction false} PositiveAdvanceTerminates<R>(read: int -> Result<Page<R>>, total: int, start: int, fuel: nat)
    requires forall x :: start <= x ==>
      && read(x).Ok?
      && read(x).value.advance >= 1
      && read(x).value.total == Some(total)
    requires fuel >= 1 && fuel >= total - start
    ensures Paginate(read, start, fuel).outcome.Finished?
    decreases fuel
  {
    var page := read(start).value;
    if Stops(page, start) {
      PaginateStops(read, start, fuel);
    } else {
      PositiveAdvanceTerminates(read, total, start + page.advance, fuel - 1);
      PaginateStep(read, start, fuel);
    }
  }

  /** A non-empty page that reports `resultsPerPage: 0` below `totalResults`
      leaves `start_index` where it is: the loop requests the same page
      forever, so every request budget is exhausted. */
  lemma {:induction false} ZeroAdvanceNeverEnds<R>(read: int -> Result<Page<R>>, start: int, fuel: nat)
    requires read(start).Ok?
    requires read(start).value.advance == 0
    requires !Stops(read(start).value, start)
    ensures Paginate(read, start, fuel).outcome.Exhausted?
    decreases fuel
  {
    if fuel > 0 {
      ZeroAdvanceNeverEnds(read, start, fuel - 1);
      PaginateStep(read, start, fuel);
    }
  }
}

=== FILE: rss.dfy ===
/** The RSS/Atom collector (`RssCollector`): the CVE token matcher, the
    feed-list rule of the constructor, and `fetch`, which maps the first
    `limit_per_feed` entries of every feed to records while a feed that cannot
    be downloaded or parsed is skipped. Downloading and `feedparser.parse` are
    the parameter `download`; the clock is the parameter `collected`. */
module Rss {
  import opened Wrappers
  import opened Json
  import opened Models
  import Text

  const DefaultTitle := "Entrada RSS"
  const SourceIdLimit := 500
  /** `limit_per_feed` when the constructor is not given one. */
  const DefaultLimitPerFeed := 50

  // ---------------------------------------------------------------- the CVE matcher

  /** `\w` on ASCII text: letters, digits and the underscore. */
  predicate IsWordChar(c: char) {
    ('a' <= c <= 'z') || ('A' <= c <= 'Z') || Text.IsDigit(c) || c == '_'
  }

  /** Position `k` of `h` holds a word character (outside `h` it does not). */
  predicate WordAt(h: string, k: int) {
    0 <= k < |h| && IsWordChar(h[k])
  }

  /** `\b` at position `k`: a word character on exactly one side. */
  predicate Boundary(h: string, k: int) {
    WordAt(h, k - 1) != WordAt(h, k)
  }

  /** `CVE-` at position `i`, letters in either case (`re.IGNORECASE`). */
  predicate CvePrefixAt(h: string, i: nat) {
    i + 4 <= |h|
    && Text.UpperChar(h[i]) == 'C' && Text.UpperChar(h[i + 1]) == 'V'
    && Text.UpperChar(h[i + 2]) == 'E' && h[i + 3] == '-'
  }

  predicate AllDigits(h: string, lo: nat, hi: nat)
    requires lo <= hi <= |h|
  {
    forall k :: lo <= k < hi ==> Text.IsDigit(h[k])
  }

  /** `\bCVE-\d{4}-\d{4,7}\b` matches `h[i..i + n]`. */
  predicate MatchAt(h: string, i: nat, n: nat) {
    && 13 <= n <= 16 && i + n <= |h|
    && Boundary(h, i)
    && CvePrefixAt(h, i)
    && AllDigits(h, i + 4, i + 8) && h[i + 8] == '-'
    && AllDigits(h, i + 9, i + n)
    && Boundary(h, i + n)
  }

  /** Where the run of digits starting at `from` ends. */
  function DigitRunEnd(h: string, from: nat): (e: nat)
    requires from <= |h|
    ensures from <= e <= |h|
    ensures AllDigits(h, from, e)
    ensures e == |h| || !Text.IsDigit(h[e])
    decreases |h| - from
  {
    if from < |h| && Text.IsDigit(h[from]) then DigitRunEnd(h, from + 1) else from
  }

  /** A run of digits that stops at `e` ends where `DigitRunEnd` says. */
  lemma {:induction false} DigitRunEndUnique(h: string, from: nat, e: nat)
    requires from <= e <= |h|
    requires AllDigits(h, from, e)
    requires e == |h| || !Text.IsDigit(h[e])
    ensures DigitRunEnd(h, from) == e
    decreases e - from
  {
    if from < e {
      assert Text.IsDigit(h[from]);
      DigitRunEndUnique(h, from + 1, e);
    }
  }

  /** The length of the match at `i`, if any. At a given position at most
      one length can match: the greedy `\d{4,7}` must be followed by `\b`,
      so the second number is the whole run of digits. */
  function MatchLen(h: string, i: nat): Option<nat> {
    if i + 9 <= |h| && Boundary(h, i) && CvePrefixAt(h, i)
       && DigitRunEnd(h, i + 4) == i + 8 && h[i + 8] == '-' then
      var e := DigitRunEnd(h, i + 9);
      if 4 <= e - (i + 9) <= 7 && Boundary(h, e) then Some(e - i) else None
    else None
  }

  /** `MatchLen` finds exactly the matches of the pattern. */
  lemma MatchLenCorrect(h: string, i: nat, n: nat)
    ensures MatchLen(h, i) == Some(n) <==> MatchAt(h, i, n)
  {
    if MatchAt(h, i, n) {
      DigitRunEndUnique(h, i + 4, i + 8);
      if i + n < |h| {
        assert !WordAt(h, i + n);
      }
      DigitRunEndUnique(h, i + 9, i + n);
    }
  }

  /** At most one match starts at a given position. */
  lemma MatchLengthUnique(h: string, i: nat, n1: nat, n2: nat)
    requires MatchAt(h, i, n1) && MatchAt(h, i, n2)
    ensures n1 == n2
  {
    MatchLenCorrect(h, i, n1);
    MatchLenCorrect(h, i, n2);
  }

  /** `re.search` from `from`: the leftmost start with a match, and its length. */
  function Search(h: string, from: nat): (r: Option<(nat, nat)>)
    requires from <= |h|
    ensures r.Some? ==> from <= r.value.0 && MatchLen(h, r.value.0) == Some(r.value.1)
    ensures r.Some? ==> forall j :: from <= j < r.value.0 ==> MatchLen(h, j).None?
    ensures r.None? ==> forall j :: from <= j <= |h| ==> MatchLen(h, j).None?
    decreases |h| - from
  {
    match MatchLen(h, from)
    case Some(n) => Some((from, n))
    case None => if from == |h| then None else Search(h, from + 1)
  }

  /** `h[i..i + n]` is the leftmost match in `h`. */
  ghost predicate Leftmost(h: string, i: nat, n: nat) {
    MatchAt(h, i, n) && forall j: nat, m: nat :: j < i ==> !MatchAt(h, j, m)
  }

  /** `Search` from the start finds the leftmost match, or reports that
      there is none. */
  lemma SearchCorrect(h: string)
    ensures Search(h, 0).None? <==> forall i: nat, n: nat :: !MatchAt(h, i, n)
    ensures Search(h, 0).Some? ==> Leftmost(h, Search(h, 0).value.0, Search(h, 0).value.1)
  {
    var found := Search(h, 0);
    if found.None? {
      forall i: nat, n: nat ensures !MatchAt(h, i, n) {
        MatchLenCorrect(h, i, n);
        if i <= |h| { assert MatchLen(h, i).None?; }
      }
    } else {
      var i := found.value.0;
      MatchLenCorrect(h, i, found.value.1);
      forall j: nat, m: nat | j < i ensures !MatchAt(h, j, m) {
        MatchLenCorrect(h, j, m);
        assert MatchLen(h, j).None?;
      }
    }
  }

  /** `CVE_RE.search(h)` and `m.group(0).upper()`: the leftmost match,
      uppercased, or None when the pattern occurs nowhere. */
  function FindCve(h: string): (r: Option<string>)
    ensures r.None? <==> forall i: nat, n: nat :: !MatchAt(h, i, n)
    ensures r.Some? ==> exists i: nat, n: nat :: Leftmost(h, i, n) && r.value == Text.UpperAscii(h[i..i + n])
    ensures r.Some? ==> 13 <= |r.value| <= 16 && r.value[..4] == "CVE-"
  {
    SearchCorrect(h);
    match Search(h, 0)
    case None => None
    case Some((i, n)) =>
      MatchLenCorrect(h, i, n);
      MatchedPrefix(h, i, n);
      Some(Text.UpperAscii(h[i..i + n]))
  }

  /** A match, uppercased, starts with "CVE-". */
  lemma MatchedPrefix(h: string, i: nat, n: nat)
    requires MatchAt(h, i, n)
    ensures Text.UpperAscii(h[i..i + n])[..4] == "CVE-"
  {
    var r := Text.UpperAscii(h[i..i + n]);
    assert r[0] == 'C' && r[1] == 'V' && r[2] == 'E' && r[3] == '-';
  }

  lemma PatchedNoteMatches()
    ensures MatchAt("cve-2023-1234 patched", 0, 13)
  {
  }

  lemma PatchedNoteUpper()
    ensures Text.UpperAscii("cve-2023-1234 patched"[0..13]) == "CVE-2023-1234"
  {
  }

  /** Lower-case ids are found and uppercased. */
  lemma LowerCaseIdIsFound()
    ensures FindCve("cve-2023-1234 patched") == Some("CVE-2023-1234")
  {
    var h := "cve-2023-1234 patched";
    PatchedNoteMatches();
    MatchLenCorrect(h, 0, 13);
    assert Search(h, 0) == Some((0, 13));
    PatchedNoteUpper();
  }

  /** The second number may not run past seven digits: no match at all
      starts at the id. */
  lemma EightDigitsAreNotAnId(n: nat)
    ensures !MatchAt("CVE-2023-12345678", 0, n)
  {
    var h := "CVE-2023-12345678";
    if 13 <= n <= 16 {
      assert WordAt(h, n - 1) && WordAt(h, n);
    }
  }

  /** A word character just before `CVE` defeats the leading `\b`. */
  lemma GluedPrefixIsNotAnId(n: nat)
    ensures !MatchAt("XCVE-2023-1234", 1, n)
  {
    assert WordAt("XCVE-2023-1234", 0) && WordAt("XCVE-2023-1234", 1);
  }

  // ---------------------------------------------------------------- feeds

  /** `FeedDef`: (source name, feed url, kind), kind "news" or "vuln". */
  datatype FeedDef = FeedDef(name: string, url: string, kind: string)

  /** The error the constructor raises without feeds or a complete single feed. */
  const MissingFeed := Exception("ValueError('Debes pasar (feed_url, source_name) o bien feeds=[...]')")

  /** A truthy optional string: present and not empty. */
  predicate Given(o: Option<string>) {
    o.Some? && o.value != ""
  }

  /** The feed list of `__init__`: `feeds` as given when it is not None;
      otherwise a single triple, provided both url and name are truthy. */
  function ConfigureFeeds(feedUrl: Option<string> := None, sourceName: Option<string> := None,
                          kind: string := "news", feeds: Option<seq<FeedDef>> := None): (r: Result<seq<FeedDef>>)
    ensures feeds.Some? ==> r == Ok(feeds.value)
    ensures feeds.None? ==> (r.Ok? <==> Given(feedUrl) && Given(sourceName))
    ensures feeds.None? && r.Ok? ==> r.value == [FeedDef(sourceName.value, feedUrl.value, kind)]
    ensures r.Err? ==> r.error == MissingFeed
  {
    if feeds.Some? then Ok(feeds.value)
    else if !Given(feedUrl) || !Given(sourceName) then Err(MissingFeed)
    else Ok([FeedDef(sourceName.value, feedUrl.value, kind)])
  }

  // ---------------------------------------------------------------- entries

  /** A parsed entry: the attributes `fetch` reads, None when absent. */
  datatype Entry = Entry(link: Option<string>, title: Option<string>, published: Option<string>,
                         updated: Option<string>, summary: Option<string>, id: Option<string>,
                         guid: Option<string>)

  /** Python `a or b` on optional strings. */
  function OrElse(a: Option<string>, b: Option<string>): (r: Option<string>)
    ensures Given(a) ==> r == a
    ensures !Given(a) ==> r == b
  {
    if Given(a) then a else b
  }

  /** `(title or "Entrada RSS").strip()`. */
  function EntryTitle(e: Entry): (t: string)
    ensures Given(e.title) ==> t == Text.Strip(e.title.value)
    ensures !Given(e.title) ==> t == DefaultTitle
    ensures t == "" <==> Given(e.title) && Text.IsBlank(e.title.value)
  {
    var t := if Given(e.title) then e.title.value else DefaultTitle;
    Text.StripKeepsUnpadded(DefaultTitle);
    Text.Strip(t)
  }

  /** `published or updated`. */
  function EntryPublished(e: Entry): Option<string> {
    OrElse(e.published, e.updated)
  }

  /** The dedup key before the cut: the first truthy of `id or guid`,
      `link`, and otherwise `title + "|" + (published or "")`. */
  function IdentityKey(e: Entry): (k: string)
    ensures Given(OrElse(e.id, e.guid)) ==> k == OrElse(e.id, e.guid).value
    ensures !Given(OrElse(e.id, e.guid)) && Given(e.link) ==> k == e.link.value
    ensures !Given(OrElse(e.id, e.guid)) && !Given(e.link) ==>
      k == EntryTitle(e) + "|" + OrElse(EntryPublished(e), Some("")).value
  {
    var guid := OrElse(e.id, e.guid);
    if Given(guid) then guid.value
    else if Given(e.link) then e.link.value
    else EntryTitle(e) + "|" + OrElse(EntryPublished(e), Some("")).value
  }

  /** `source_id`: the identity key cut to at most 500 characters. */
  function SourceId(e: Entry): (id: string)
    ensures |id| == Text.Min(|IdentityKey(e)|, SourceIdLimit)
    ensures id == IdentityKey(e)[..|id|]
  {
    Text.Take(IdentityKey(e), SourceIdLimit)
  }

  /** The text searched for an id: `f"{title}\n{summary or ''}"`. */
  function Haystack(e: Entry): string {
    EntryTitle(e) + "\n" + OrElse(e.summary, Some("")).value
  }

  /** The `raw` dict stored with each entry. */
  function RawOf(e: Entry, feed: FeedDef): Value {
    Obj(map["title" := Str(EntryTitle(e)), "link" := OfOption(e.link),
            "published" := OfOption(EntryPublished(e)), "summary" := OfOption(e.summary),
            "feed_url" := Str(feed.url)])
  }

  /** One entry of one feed as a record: a Vulnerability carrying the
      leftmost CVE id of title and summary when the feed's kind is "vuln",
      otherwise a NewsItem carrying the summary. */
  function MapEntry(feed: FeedDef, e: Entry, collected: string): (it: Item)
    ensures it.source == "rss_" + feed.name
    ensures it.sourceId == SourceId(e) && it.title == EntryTitle(e)
    ensures it.url == e.link && it.publishedAt == EntryPublished(e) && it.collectedAt == collected
    ensures it.Vulnerability? <==> feed.kind == "vuln"
    ensures it.Vulnerability? ==> it.kind == VulnKind && it.cve == FindCve(Haystack(e))
                                  && it.vendor == None && it.product == None && it.severity == None
    ensures it.NewsItem? <==> feed.kind != "vuln"
    ensures it.NewsItem? ==> it.kind == NewsKind && it.summary == e.summary
    ensures it.raw == Obj(map["title" := Str(it.title), "link" := OfOption(it.url),
                              "published" := OfOption(it.publishedAt), "summary" := OfOption(e.summary),
                              "feed_url" := Str(feed.url)])
  {
    var source := "rss_" + feed.name;
    if feed.kind == "vuln" then
      Vulnerability(VulnKind, source, SourceId(e), EntryTitle(e), e.link, EntryPublished(e), collected,
                    RawOf(e, feed), cve := FindCve(Haystack(e)))
    else
      NewsItem(NewsKind, source, SourceId(e), EntryTitle(e), e.link, EntryPublished(e), collected,
               RawOf(e, feed), summary := e.summary)
  }

  /** Entries of one feed that share a truthy `id` (or `guid`) share a
      fingerprint, whatever else changed: a re-published entry is
      deduplicated. */
  lemma SameGuidSameFingerprint(sha256: string -> string, feed: FeedDef, e1: Entry, e2: Entry, c1: string, c2: string)
    requires Given(OrElse(e1.id, e1.guid))
    requires OrElse(e1.id, e1.guid) == OrElse(e2.id, e2.guid)
    ensures Fingerprint(sha256, MapEntry(feed, e1, c1)) == Fingerprint(sha256, MapEntry(feed, e2, c2))
  {
  }

  // ---------------------------------------------------------------- fetch

  /** What `feedparser.parse` hands back: the entries, possibly none. */
  datatype Parsed = Parsed(entries: seq<Entry>)

  /** The records of one feed that was read: its first `limit` entries
      (Python slice `entries[:limit]`) in feed order. */
  function FeedItems(feed: FeedDef, entries: seq<Entry>, limit: int, collected: string): (out: seq<Item>)
    ensures |out| == |Text.Take(entries, limit)|
    ensures forall k :: 0 <= k < |out| ==> out[k] == MapEntry(feed, entries[k], collected)
  {
    var taken := Text.Take(entries, limit);
    seq(|taken|, k requires 0 <= k < |taken| => MapEntry(feed, taken[k], collected))
  }

  /** The records of one feed: none when its download or parse raised. */
  function FeedOutcome(feed: FeedDef, download: FeedDef -> Result<Parsed>, limit: int, collected: string): seq<Item> {
    match download(feed)
    case Err(_) => []
    case Ok(p) => FeedItems(feed, p.entries, limit, collected)
  }

  /** The per-feed results of `fetch()`, concatenated in feed order. */
  function Concat(feeds: seq<FeedDef>, records: FeedDef -> seq<Item>): seq<Item>
    decreases |feeds|
  {
    if feeds == [] then [] else Concat(feeds[..|feeds| - 1], records) + records(feeds[|feeds| - 1])
  }

  lemma {:induction false} ConcatSplit(a: seq<FeedDef>, b: seq<FeedDef>, records: FeedDef -> seq<Item>)
    ensures Concat(a + b, records) == Concat(a, records) + Concat(b, records)
    decreases |b|
  {
    if b == [] {
      assert a + b == a;
    } else {
      var b' := b[..|b| - 1];
      assert (a + b)[..|a + b| - 1] == a + b';
      assert (a + b)[|a + b| - 1] == b[|b| - 1];
      ConcatSplit(a, b', records);
    }
  }

  lemma MulSucc(x: nat, y: int)
    ensures (x + 1) * y == x * y + y
  {
  }

  lemma {:induction false} ConcatBound(feeds: seq<FeedDef>, records: FeedDef -> seq<Item>, limit: nat)
    requires forall f :: f in feeds ==> |records(f)| <= limit
    ensures |Concat(feeds, records)| <= |feeds| * limit
    decreases |feeds|
  {
    if feeds != [] {
      var init := feeds[..|feeds| - 1];
      assert forall f :: f in init ==> f in feeds;
      ConcatBound(init, records, limit);
      MulSucc(|init|, limit);
    }
  }

  /** The records of each feed of one `fetch()`. */
  function FeedRecords(download: FeedDef -> Result<Parsed>, limit: int, collected: string): FeedDef -> seq<Item> {
    feed => FeedOutcome(feed, download, limit, collected)
  }

  /** `fetch()`: the feeds in list order, each contributing its records. */
  function FetchFeeds(feeds: seq<FeedDef>, download: FeedDef -> Result<Parsed>, limit: int := DefaultLimitPerFeed,
                      collected: string): seq<Item> {
    Concat(feeds, FeedRecords(download, limit, collected))
  }

  /** Feeds are independent: fetching a list of feeds gives the records of
      its first part followed by those of its second part. */
  lemma FetchFeedsSplit(a: seq<FeedDef>, b: seq<FeedDef>, download: FeedDef -> Result<Parsed>,
                        limit: int, collected: string)
    ensures FetchFeeds(a + b, download, limit, collected)
         == FetchFeeds(a, download, limit, collected) + FetchFeeds(b, download, limit, collected)
  {
    ConcatSplit(a, b, FeedRecords(download, limit, collected));
  }

  /** A feed that raises contributes nothing, and the feeds after it are
      still processed. */
  lemma FailingFeedIsSkipped(before: seq<FeedDef>, bad: FeedDef, after: seq<FeedDef>,
                             download: FeedDef -> Result<Parsed>, limit: int, collected: string)
    requires download(bad).Err?
    ensures FetchFeeds(before + [bad] + after, download, limit, collected)
         == FetchFeeds(before, download, limit, collected) + FetchFeeds(after, download, limit, collected)
  {
    var records := FeedRecords(download, limit, collected);
    ConcatSplit(before + [bad], after, records);
    ConcatSplit(before, [bad], records);
    assert records(bad) == [];
    assert Concat([bad], records) == [] by {
      assert [bad][..0] == [];
    }
    assert Concat(before + [bad], records) == Concat(before, records);
  }

  /** A feed that was read contributes its first `limit` entries, mapped. */
  lemma ReadFeedContributes(before: seq<FeedDef>, feed: FeedDef, after: seq<FeedDef>,
                            download: FeedDef -> Result<Parsed>, limit: int, collected: string)
    requires download(feed).Ok?
    ensures FetchFeeds(before + [feed] + after, download, limit, collected)
         == FetchFeeds(before, download, limit, collected)
            + FeedItems(feed, download(feed).value.entries, limit, collected)
            + FetchFeeds(after, download, limit, collected)
  {
    var records := FeedRecords(download, limit, collected);
    ConcatSplit(before + [feed], after, records);
    ConcatSplit(before, [feed], records);
    assert Concat([feed], records) == records(feed) by {
      assert [feed][..0] == [];
    }
  }

  /** With a non-negative limit, every feed contributes at most `limit`
      records. */
  lemma FetchFeedsBound(feeds: seq<FeedDef>, download: FeedDef -> Result<Parsed>, limit: int, collected: string)
    requires limit >= 0
    ensures |FetchFeeds(feeds, download, limit, collected)| <= |feeds| * limit
  {
    var records := FeedRecords(download, limit, collected);
    forall f | f in feeds ensures |records(f)| <= limit {
      if download(f).Ok? {
        assert |Text.Take(download(f).value.entries, limit)| <= limit;
      }
    }
    ConcatBound(feeds, records, limit);
  }
}

=== FILE: runner.dfy ===
/** `run_collectors`: collectors are split by `needs_selenium()` into a
    plain-HTTP pool and a Selenium pool; every unit fetches and then upserts
    its records, a raising unit is reported with its error instead, and the
    HTTP pool's results come before the Selenium pool's. The thread pools
    are modelled sequentially: the order in which a pool's units complete is
    the parameter `httpOrder` / `selOrder`, any permutation of the pool. */
module Runner {
  import opened Wrappers
  import opened Models
  import opened Storage

  /** A collector as the runner sees it: its name, its pool, what `fetch()`
      returns or raises, and the error the store raises while saving its
      records, if it does. */
  datatype Collector = Collector(name: string, needsSelenium: bool, fetched: Result<seq<Item>>,
                                 storeFault: Option<Exception>)

  /** The `(name, inserted, skipped, status)` tuple of one unit. */
  datatype Report = Report(name: string, inserted: nat, skipped: nat, status: string)

  const StatusOk := "ok"

  /** `f"error: {e!r}"`. */
  function ErrorStatus(e: Exception): (st: string)
    ensures st != StatusOk
  {
    var st := "error: " + e.repr;
    assert st[0] == 'e';
    st
  }

  /** Neither the fetch nor the upsert raises. */
  predicate Succeeds(c: Collector) {
    c.fetched.Ok? && c.storeFault.None?
  }

  /** The exception a failing unit catches: the fetch's, else the store's. */
  function Failure(c: Collector): Exception
    requires !Succeeds(c)
  {
    if c.fetched.Err? then c.fetched.error else c.storeFault.value
  }

  /** The report of a failing unit: no counts, the error as status. */
  function FailureReport(c: Collector): Report
    requires !Succeeds(c)
  {
    Report(c.name, 0, 0, ErrorStatus(Failure(c)))
  }

  datatype Step = Step(report: Report, store: Store)

  /** `_run_one(c)`: fetch, upsert, and report the counts with "ok"; any
      exception yields `(name, 0, 0, "error: ...")`. A raising upsert is
      taken to leave the store as it was. */
  function RunOne(sha256: string -> string, c: Collector, s: Store): (r: Step)
    ensures r.report.name == c.name
    ensures r.report.status == StatusOk <==> Succeeds(c)
    ensures !Succeeds(c) ==> r == Step(FailureReport(c), s)
  {
    if !Succeeds(c) then Step(FailureReport(c), s)
    else
      var u := UpsertMany(sha256, s, c.fetched.value);
      Step(Report(c.name, u.inserted, u.skipped, StatusOk), u.store)
  }

  /** A succeeding unit's counts and store are those of upserting what it
      fetched. */
  lemma RunOneUpserts(sha256: string -> string, c: Collector, s: Store)
    requires Succeeds(c)
    ensures var r := RunOne(sha256, c, s);
      Upserts(sha256, s, c.fetched.value, Upserted(r.store, r.report.inserted, r.report.skipped))
  {
  }

  /** The reports of a run, and the store it leaves. */
  datatype PoolRun = PoolRun(reports: seq<Report>, store: Store)

  /** The sum of the `inserted` counts. */
  function SumInserted(reports: seq<Report>): nat
    decreases |reports|
  {
    if reports == [] then 0 else reports[0].inserted + SumInserted(reports[1..])
  }

  /** `_run_one` as a step of a pool. */
  function Unit(sha256: string -> string): (Collector, Store) -> Step {
    (c, t) => RunOne(sha256, c, t)
  }

  /** One pool, its units completing in the order given, each on the store
      the previous one left. */
  function RunPool(step: (Collector, Store) -> Step, units: seq<Collector>, s: Store): (r: PoolRun)
    ensures |r.reports| == |units|
    decreases |units|
  {
    if units == [] then PoolRun([], s)
    else
      var one := step(units[0], s);
      var rest := RunPool(step, units[1..], one.store);
      PoolRun([one.report] + rest.reports, rest.store)
  }

  /** The report a unit gives: its name, "ok" exactly when it succeeded,
      and its failure report otherwise. */
  predicate ReportsUnit(rp: Report, c: Collector) {
    && rp.name == c.name
    && (rp.status == StatusOk <==> Succeeds(c))
    && (!Succeeds(c) ==> rp == FailureReport(c))
  }

  /** One report per unit, in completion order, each the report that unit
      gives. */
  lemma {:induction false} RunPoolReports(sha256: string -> string, units: seq<Collector>, s: Store)
    ensures var r := RunPool(Unit(sha256), units, s);
      forall k :: 0 <= k < |units| ==> ReportsUnit(r.reports[k], units[k])
    decreases |units|
  {
    if units != [] {
      var step := Unit(sha256);
      var one := step(units[0], s);
      var rest := RunPool(step, units[1..], one.store);
      var r := RunPool(step, units, s);
      RunPoolCons(step, units, s);
      RunPoolReports(sha256, units[1..], one.store);
      assert ReportsUnit(one.report, units[0]);
      forall k | 1 <= k < |units| ensures ReportsUnit(r.reports[k], units[k]) {
        assert units[k] == units[1..][k - 1];
        assert r.reports[k] == rest.reports[k - 1];
      }
    }
  }

  /** The store grows by exactly what the reports say was inserted, keeps
      every fingerprint it had, and its `state` is untouched. */
  lemma {:induction false} RunPoolStore(sha256: string -> string, units: seq<Collector>, s: Store)
    ensures var r := RunPool(Unit(sha256), units, s);
      && TotalItems(r.store) == TotalItems(s) + SumInserted(r.reports)
      && r.store.state == s.state
      && s.items.Keys <= r.store.items.Keys
    decreases |units|
  {
    if units != [] {
      var one := RunOne(sha256, units[0], s);
      if Succeeds(units[0]) {
        RunOneUpserts(sha256, units[0], s);
      }
      RunPoolStore(sha256, units[1..], one.store);
      var r := RunPool(Unit(sha256), units, s);
      assert r.reports[1..] == RunPool(Unit(sha256), units[1..], one.store).reports;
    }
  }

  /** A pool runs its first unit, then the rest on the store it left. */
  lemma RunPoolCons(step: (Collector, Store) -> Step, units: seq<Collector>, s: Store)
    requires units != []
    ensures var one := step(units[0], s);
      var rest := RunPool(step, units[1..], one.store);
      RunPool(step, units, s) == PoolRun([one.report] + rest.reports, rest.store)
  {
  }

  /** Running `a + b` is running `a`, then `b` on the store `a` left. */
  lemma {:induction false} RunPoolSplit(step: (Collector, Store) -> Step, a: seq<Collector>, b: seq<Collector>, s: Store)
    ensures var ra := RunPool(step, a, s);
      var rb := RunPool(step, b, ra.store);
      RunPool(step, a + b, s) == PoolRun(ra.reports + rb.reports, rb.store)
    decreases |a|
  {
    if a == [] {
      assert a + b == b;
    } else {
      var one := step(a[0], s);
      assert (a + b)[0] == a[0] && (a + b)[1..] == a[1..] + b;
      RunPoolCons(step, a + b, s);
      RunPoolCons(step, a, s);
      RunPoolSplit(step, a[1..], b, one.store);
      var ra' := RunPool(step, a[1..], one.store);
      var rb := RunPool(step, b, ra'.store);
      assert [one.report] + (ra'.reports + rb.reports) == ([one.report] + ra'.reports) + rb.reports;
    }
  }

  /** A failing unit is invisible to the others: it reports its error with
      no counts, and every other unit reports, and the store ends, exactly
      as in a run without it. */
  lemma FailureIsIsolated(sha256: string -> string, before: seq<Collector>, bad: Collector, after: seq<Collector>, s: Store)
    requires !Succeeds(bad)
    ensures var ra := RunPool(Unit(sha256), before, s);
      var rb := RunPool(Unit(sha256), after, ra.store);
      && RunPool(Unit(sha256), before + [bad] + after, s) == PoolRun(ra.reports + [FailureReport(bad)] + rb.reports, rb.store)
      && RunPool(Unit(sha256), before + after, s) == PoolRun(ra.reports + rb.reports, rb.store)
  {
    var step := Unit(sha256);
    var ra := RunPool(step, before, s);
    RunPoolSplit(step, before + [bad], after, s);
    RunPoolSplit(step, before, [bad], s);
    RunPoolSplit(step, before, after, s);
    assert RunPool(step, [bad], ra.store) == PoolRun([FailureReport(bad)], ra.store) by {
      assert [bad][1..] == [];
      assert step(bad, ra.store) == Step(FailureReport(bad), ra.store);
    }
  }

  // ---------------------------------------------------------------- pools

  /** `[c for c in collectors if not c.needs_selenium()]`. */
  function Http(cs: seq<Collector>): (r: seq<Collector>)
    ensures forall c :: c in r <==> c in cs && !c.needsSelenium
    ensures |r| <= |cs|
    decreases |cs|
  {
    if cs == [] then []
    else (if cs[0].needsSelenium then [] else [cs[0]]) + Http(cs[1..])
  }

  /** `[c for c in collectors if c.needs_selenium()]`. */
  function Sel(cs: seq<Collector>): (r: seq<Collector>)
    ensures forall c :: c in r <==> c in cs && c.needsSelenium
    ensures |r| <= |cs|
    decreases |cs|
  {
    if cs == [] then []
    else (if cs[0].needsSelenium then [cs[0]] else []) + Sel(cs[1..])
  }

  /** Every collector lands in exactly one pool, as often as it is listed. */
  lemma {:induction false} PartitionExact(cs: seq<Collector>)
    ensures multiset(Http(cs)) + multiset(Sel(cs)) == multiset(cs)
    ensures |Http(cs)| + |Sel(cs)| == |cs|
    decreases |cs|
  {
    if cs != [] {
      PartitionExact(cs[1..]);
      assert cs == [cs[0]] + cs[1..];
    }
  }

  /** The name of a collector. */
  function CollectorName(c: Collector): string {
    c.name
  }

  /** The name a report carries. */
  function ReportName(rp: Report): string {
    rp.name
  }

  /** `f` applied to every element of `s`, in order. */
  function Apply<A, B>(f: A -> B, s: seq<A>): (r: seq<B>)
    ensures |r| == |s| && forall k :: 0 <= k < |s| ==> r[k] == f(s[k])
  {
    seq(|s|, k requires 0 <= k < |s| => f(s[k]))
  }

  /** Removing position `p` removes one occurrence of `s[p]`. */
  lemma MultisetRemove<T>(s: seq<T>, p: nat)
    requires p < |s|
    ensures multiset(s[..p] + s[p + 1..]) == multiset(s) - multiset{s[p]}
  {
    assert s == s[..p] + [s[p]] + s[p + 1..];
  }

  /** The position of some occurrence of `x` in `s`. */
  function IndexOf<T(==)>(s: seq<T>, x: T): (p: nat)
    requires x in s
    ensures p < |s| && s[p] == x
  {
    if s[0] == x then 0 else 1 + IndexOf(s[1..], x)
  }

  lemma ApplyRemove<A, B>(f: A -> B, s: seq<A>, p: nat)
    requires p < |s|
    ensures Apply(f, s[..p] + s[p + 1..]) == Apply(f, s)[..p] + Apply(f, s)[p + 1..]
  {
  }

  lemma ApplyRemoveCount<A, B>(f: A -> B, s: seq<A>, p: nat)
    requires p < |s|
    ensures f(s[p]) in multiset(Apply(f, s))
    ensures multiset(Apply(f, s[..p] + s[p + 1..])) == multiset(Apply(f, s)) - multiset{f(s[p])}
  {
    ApplyRemove(f, s, p);
    MultisetRemove(Apply(f, s), p);
    assert Apply(f, s)[p] == f(s[p]);
  }

  lemma ApplyTailCount<A, B>(f: A -> B, s: seq<A>)
    requires |s| > 0
    ensures f(s[0]) in multiset(Apply(f, s))
    ensures multiset(Apply(f, s[1..])) == multiset(Apply(f, s)) - multiset{f(s[0])}
  {
    assert Apply(f, s) == [f(s[0])] + Apply(f, s[1..]);
  }

  lemma Cancel<T>(m1: multiset<T>, m2: multiset<T>, x: T)
    requires x in m1 && x in m2 && m1 - multiset{x} == m2 - multiset{x}
    ensures m1 == m2
  {
    assert m1 == (m1 - multiset{x}) + multiset{x};
    assert m2 == (m2 - multiset{x}) + multiset{x};
  }

  /** Reordering a sequence reorders its image. */
  lemma {:induction false} ApplyPermutation<A, B>(f: A -> B, a: seq<A>, b: seq<A>)
    requires multiset(a) == multiset(b)
    ensures multiset(Apply(f, a)) == multiset(Apply(f, b))
    decreases |a|
  {
    if a == [] {
      assert |b| == |multiset(b)| == 0;
    } else {
      var x := a[0];
      assert x in multiset(b);
      var p := IndexOf(b, x);
      var rest := a[1..];
      var b' := b[..p] + b[p + 1..];
      MultisetRemove(b, p);
      assert a == [x] + rest;
      assert multiset(rest) == multiset(a) - multiset{x};
      assert multiset(b') == multiset(b) - multiset{x};
      assert multiset(rest) == multiset(b');
      ApplyPermutation(f, rest, b');
      ApplyRemoveCount(f, b, p);
      ApplyTailCount(f, a);
      var ma, mb, fx := multiset(Apply(f, a)), multiset(Apply(f, b)), f(x);
      assert ma - multiset{fx} == multiset(Apply(f, rest));
      assert mb - multiset{fx} == multiset(Apply(f, b'));
      Cancel(multiset(Apply(f, a)), multiset(Apply(f, b)), f(x));
    }
  }

  /** Reordering collectors reorders their names. */
  lemma NamesOfPermutation(a: seq<Collector>, b: seq<Collector>)
    requires multiset(a) == multiset(b)
    ensures multiset(Apply(CollectorName, a)) == multiset(Apply(CollectorName, b))
  {
    ApplyPermutation(CollectorName, a, b);
  }

  /** A completion order of each pool: any permutation of it. */
  predicate Schedules(cs: seq<Collector>, httpOrder: seq<Collector>, selOrder: seq<Collector>) {
    multiset(httpOrder) == multiset(Http(cs)) && multiset(selOrder) == multiset(Sel(cs))
  }

  /** Together, the two completion orders list every collector exactly as
      often as `collectors` does, HTTP ones first. */
  lemma SchedulesCover(cs: seq<Collector>, httpOrder: seq<Collector>, selOrder: seq<Collector>)
    requires Schedules(cs, httpOrder, selOrder)
    ensures multiset(httpOrder + selOrder) == multiset(cs)
    ensures |httpOrder| == |Http(cs)| && |httpOrder + selOrder| == |cs|
    ensures forall k :: 0 <= k < |cs| ==> ((httpOrder + selOrder)[k].needsSelenium <==> k >= |httpOrder|)
  {
    PartitionExact(cs);
    assert |httpOrder| == |multiset(httpOrder)| == |multiset(Http(cs))| == |Http(cs)|;
    assert |selOrder| == |multiset(selOrder)| == |multiset(Sel(cs))| == |Sel(cs)|;
    forall k | 0 <= k < |cs|
      ensures (httpOrder + selOrder)[k].needsSelenium <==> k >= |httpOrder|
    {
      if k < |httpOrder| {
        assert httpOrder[k] in multiset(Http(cs));
      } else {
        assert selOrder[k - |httpOrder|] in multiset(Sel(cs));
      }
    }
  }

  /** `run_collectors`: the HTTP pool, then the Selenium pool on the store
      the first left; one report per collector, and the whole run is one
      pass over the HTTP completion order followed by the Selenium one. */
  function RunCollectors(sha256: string -> string, cs: seq<Collector>, httpOrder: seq<Collector>,
                         selOrder: seq<Collector>, s: Store): (r: PoolRun)
    requires Schedules(cs, httpOrder, selOrder)
    ensures |r.reports| == |cs|
    ensures r == RunPool(Unit(sha256), httpOrder + selOrder, s)
  {
    var h := RunPool(Unit(sha256), httpOrder, s);
    var z := RunPool(Unit(sha256), selOrder, h.store);
    RunPoolSplit(Unit(sha256), httpOrder, selOrder, s);
    SchedulesCover(cs, httpOrder, selOrder);
    PoolRun(h.reports + z.reports, z.store)
  }

  /** What a run reports: the names a permutation of the collectors' names,
      every HTTP report before every Selenium one, "ok" exactly for the
      units that succeeded, and a store grown by the reported inserts. */
  lemma RunCollectorsReports(sha256: string -> string, cs: seq<Collector>, httpOrder: seq<Collector>,
                             selOrder: seq<Collector>, s: Store)
    requires Schedules(cs, httpOrder, selOrder)
    ensures var r := RunCollectors(sha256, cs, httpOrder, selOrder, s);
      && multiset(Apply(ReportName, r.reports)) == multiset(Apply(CollectorName, cs))
      && (forall k :: 0 <= k < |cs| ==> var c := (httpOrder + selOrder)[k];
        && r.reports[k].name == c.name
        && (c.needsSelenium <==> k >= |Http(cs)|)
        && (r.reports[k].status == StatusOk <==> Succeeds(c))
        && (!Succeeds(c) ==> r.reports[k] == FailureReport(c)))
      && TotalItems(r.store) == TotalItems(s) + SumInserted(r.reports)
      && r.store.state == s.state
  {
    var order := httpOrder + selOrder;
    SchedulesCover(cs, httpOrder, selOrder);
    RunPoolReports(sha256, order, s);
    RunPoolStore(sha256, order, s);
    var all := RunPool(Unit(sha256), order, s);
    assert Apply(ReportName, all.reports) == Apply(CollectorName, order);
    NamesOfPermutation(order, cs);
  }
}

=== FILE: storage.dfy ===
/** The SQLite store: the `items` table keyed by fingerprint and the
    separate `state` key-value table, as two maps. Each operation is one
    atomic step; connections, pragmas and SQL text are not modelled. */
module Storage {
  import opened Wrappers
  import opened Models
  import Text

  /** A row of `items`; `json` stands for the record `to_json()` serialises. */
  datatype Row = Row(kind: string, source: string, sourceId: string, title: string,
                     url: Option<string>, publishedAt: Option<string>, collectedAt: string,
                     json: Item)

  /** The row the INSERT of `upsert_many` writes for a record. */
  function RowOf(it: Item): Row {
    Row(Tag(it.kind), it.source, it.sourceId, it.title, it.url, it.publishedAt, it.collectedAt, it)
  }

  /** The store once its schema exists: fingerprint -> row, key -> value. */
  datatype Store = Store(items: map<string, Row>, state: map<string, string>)

  /** The database file as found at start-up: each table may or may not exist. */
  datatype Tables = Tables(items: Option<map<string, Row>>, state: Option<map<string, string>>)

  /** The tables of an open store, as they persist on disk. */
  function Persist(s: Store): Tables {
    Tables(Some(s.items), Some(s.state))
  }

  /** `CREATE TABLE IF NOT EXISTS` for both tables: a missing table starts
      empty and an existing one is kept with every row it holds. */
  function Initialize(t: Tables): (s: Store)
    ensures t.items.Some? ==> s.items == t.items.value
    ensures t.state.Some? ==> s.state == t.state.value
    ensures t.items.None? ==> s.items == map[]
    ensures t.state.None? ==> s.state == map[]
  {
    Store(t.items.GetOr(map[]), t.state.GetOr(map[]))
  }

  /** Re-opening a store loses nothing, so initialising on every start is safe. */
  lemma ReopenKeepsEverything(s: Store)
    ensures Initialize(Persist(s)) == s
  {
  }

  /** Initialising twice is the same as initialising once. */
  lemma InitializeIdempotent(t: Tables)
    ensures Initialize(Persist(Initialize(t))) == Initialize(t)
  {
  }

  /** `total_items()`: `SELECT COUNT(*) FROM items`. */
  function TotalItems(s: Store): nat {
    |s.items|
  }

  /** The fingerprints of a batch. */
  function Fingerprints(sha256: string -> string, items: seq<Item>): set<string> {
    set j | 0 <= j < |items| :: Fingerprint(sha256, items[j])
  }

  /** No earlier record of the batch has the same fingerprint as `items[j]`. */
  predicate FirstOccurrence(sha256: string -> string, items: seq<Item>, j: nat)
    requires j < |items|
  {
    forall i :: 0 <= i < j ==> Fingerprint(sha256, items[i]) != Fingerprint(sha256, items[j])
  }

  /** The counts `upsert_many` returns, and the store it leaves. */
  datatype Upserted = Upserted(store: Store, inserted: nat, skipped: nat)

  lemma FingerprintsCons(sha256: string -> string, items: seq<Item>)
    requires items != []
    ensures Fingerprints(sha256, items)
         == {Fingerprint(sha256, items[0])} + Fingerprints(sha256, items[1..])
  {
    var f := Fingerprints(sha256, items);
    var g := Fingerprints(sha256, items[1..]);
    forall x | x in f ensures x == Fingerprint(sha256, items[0]) || x in g {
      var j :| 0 <= j < |items| && x == Fingerprint(sha256, items[j]);
      if j > 0 { assert items[j] == items[1..][j - 1]; }
    }
    forall x | x in g ensures x in f {
      var j :| 0 <= j < |items[1..]| && x == Fingerprint(sha256, items[1..][j]);
      assert items[1..][j] == items[j + 1];
    }
  }

  /** Every record is either inserted or skipped, and `state` is untouched. */
  ghost predicate Accounted(s: Store, items: seq<Item>, r: Upserted) {
    r.inserted + r.skipped == |items| && r.store.state == s.state
  }

  /** The stored fingerprints grow by exactly the batch's, and no stored row changes. */
  ghost predicate GrowsBy(sha256: string -> string, s: Store, items: seq<Item>, r: Upserted) {
    && r.store.items.Keys == s.items.Keys + Fingerprints(sha256, items)
    && (forall k :: k in s.items ==> r.store.items[k] == s.items[k])
  }

  /** A new fingerprint holds the row of its first occurrence in the batch. */
  ghost predicate FirstWriteWins(sha256: string -> string, s: Store, items: seq<Item>, r: Upserted) {
    forall j :: 0 <= j < |items| && Fingerprint(sha256, items[j]) !in s.items
                && FirstOccurrence(sha256, items, j)
                ==> Fingerprint(sha256, items[j]) in r.store.items
                    && r.store.items[Fingerprint(sha256, items[j])] == RowOf(items[j])
  }

  /** `inserted` counts the batch's new fingerprints, so `total_items` grows by exactly `inserted`. */
  ghost predicate CountsNew(sha256: string -> string, s: Store, items: seq<Item>, r: Upserted) {
    && r.inserted == |Fingerprints(sha256, items) - s.items.Keys|
    && |r.store.items| == |s.items| + r.inserted
  }

  /** What `upsert_many` promises for a batch submitted to `s` that returned `r`. */
  ghost predicate Upserts(sha256: string -> string, s: Store, items: seq<Item>, r: Upserted) {
    && Accounted(s, items, r)
    && GrowsBy(sha256, s, items, r)
    && FirstWriteWins(sha256, s, items, r)
    && CountsNew(sha256, s, items, r)
  }

  /** `upsert_many`: each record is INSERTed under its fingerprint; a
      fingerprint already present raises IntegrityError, which counts as a
      skip and leaves the stored row alone. First write wins, both against
      the store and within the batch. */
  function UpsertMany(sha256: string -> string, s: Store, items: seq<Item>): (r: Upserted)
    ensures Upserts(sha256, s, items, r)
    decreases |items|
  {
    if items == [] then
      assert Fingerprints(sha256, items) == {};
      Upserted(s, 0, 0)
    else
      var fp := Fingerprint(sha256, items[0]);
      FingerprintsCons(sha256, items);
      if fp in s.items then
        var r := UpsertMany(sha256, s, items[1..]);
        var r' := Upserted(r.store, r.inserted, r.skipped + 1);
        SkipCounts(sha256, s, items, r);
        SkipFirstWrite(sha256, s, items, r);
        r'
      else
        var s1 := s.(items := s.items[fp := RowOf(items[0])]);
        var r := UpsertMany(sha256, s1, items[1..]);
        var r' := Upserted(r.store, r.inserted + 1, r.skipped);
        InsertCounts(sha256, s, items, r);
        InsertFirstWrite(sha256, s, items, r);
        r'
  }

  /** `Fingerprints(items)` without its head is `Fingerprints(items[1..])`. */
  lemma TailFirstOccurrence(sha256: string -> string, items: seq<Item>, j: nat)
    requires 0 < j < |items| && FirstOccurrence(sha256, items, j)
    ensures items[j] == items[1..][j - 1]
    ensures FirstOccurrence(sha256, items[1..], j - 1)
    ensures Fingerprint(sha256, items[j]) != Fingerprint(sha256, items[0])
  {
    forall i | 0 <= i < j - 1 ensures Fingerprint(sha256, items[1..][i]) != Fingerprint(sha256, items[j]) {
      assert items[1..][i] == items[i + 1];
    }
  }

  lemma SkipCounts(sha256: string -> string, s: Store, items: seq<Item>, r: Upserted)
    requires items != [] && Fingerprint(sha256, items[0]) in s.items
    requires Fingerprints(sha256, items) == {Fingerprint(sha256, items[0])} + Fingerprints(sha256, items[1..])
    requires Accounted(s, items[1..], r) && GrowsBy(sha256, s, items[1..], r) && CountsNew(sha256, s, items[1..], r)
    ensures var r' := Upserted(r.store, r.inserted, r.skipped + 1);
      Accounted(s, items, r') && GrowsBy(sha256, s, items, r') && CountsNew(sha256, s, items, r')
  {
    assert Fingerprints(sha256, items) - s.items.Keys == Fingerprints(sha256, items[1..]) - s.items.Keys;
  }

  lemma SkipFirstWrite(sha256: string -> string, s: Store, items: seq<Item>, r: Upserted)
    requires items != [] && Fingerprint(sha256, items[0]) in s.items
    requires FirstWriteWins(sha256, s, items[1..], r)
    ensures FirstWriteWins(sha256, s, items, Upserted(r.store, r.inserted, r.skipped + 1))
  {
    forall j | 0 <= j < |items| && Fingerprint(sha256, items[j]) !in s.items && FirstOccurrence(sha256, items, j)
      ensures Fingerprint(sha256, items[j]) in r.store.items
      ensures r.store.items[Fingerprint(sha256, items[j])] == RowOf(items[j])
    {
      TailFirstOccurrence(sha256, items, j);
    }
  }

  lemma InsertCounts(sha256: string -> string, s: Store, items: seq<Item>, r: Upserted)
    requires items != [] && Fingerprint(sha256, items[0]) !in s.items
    requires Fingerprints(sha256, items) == {Fingerprint(sha256, items[0])} + Fingerprints(sha256, items[1..])
    requires var s1 := s.(items := s.items[Fingerprint(sha256, items[0]) := RowOf(items[0])]);
      Accounted(s1, items[1..], r) && GrowsBy(sha256, s1, items[1..], r) && CountsNew(sha256, s1, items[1..], r)
    ensures var r' := Upserted(r.store, r.inserted + 1, r.skipped);
      Accounted(s, items, r') && GrowsBy(sha256, s, items, r') && CountsNew(sha256, s, items, r')
  {
    var fp := Fingerprint(sha256, items[0]);
    var s1 := s.(items := s.items[fp := RowOf(items[0])]);
    InsertKeys(sha256, s, items, s1, r);
    InsertNew(Fingerprints(sha256, items), Fingerprints(sha256, items[1..]), s.items.Keys, fp);
    assert |s1.items| == |s.items| + 1;
  }

  lemma InsertKeys(sha256: string -> string, s: Store, items: seq<Item>, s1: Store, r: Upserted)
    requires items != [] && Fingerprint(sha256, items[0]) !in s.items
    requires s1 == s.(items := s.items[Fingerprint(sha256, items[0]) := RowOf(items[0])])
    requires Fingerprints(sha256, items) == {Fingerprint(sha256, items[0])} + Fingerprints(sha256, items[1..])
    requires GrowsBy(sha256, s1, items[1..], r)
    ensures GrowsBy(sha256, s, items, Upserted(r.store, r.inserted + 1, r.skipped))
  {
    var fp := Fingerprint(sha256, items[0]);
    var f, g := Fingerprints(sha256, items), Fingerprints(sha256, items[1..]);
    assert s1.items.Keys == s.items.Keys + {fp};
    assert r.store.items.Keys == s1.items.Keys + g;
    assert r.store.items.Keys == s.items.Keys + f;
    forall k | k in s.items
      ensures r.store.items[k] == s.items[k]
    {
      assert k in s1.items && s1.items[k] == s.items[k];
    }
  }

  /** Set arithmetic behind the count of an insert. */
  lemma InsertNew(f: set<string>, g: set<string>, keys: set<string>, fp: string)
    requires f == {fp} + g && fp !in keys
    ensures |f - keys| == |g - (keys + {fp})| + 1
  {
    assert f - keys == (g - (keys + {fp})) + {fp};
    assert fp !in g - (keys + {fp});
  }

  lemma InsertFirstWrite(sha256: string -> string, s: Store, items: seq<Item>, r: Upserted)
    requires items != [] && Fingerprint(sha256, items[0]) !in s.items
    requires var s1 := s.(items := s.items[Fingerprint(sha256, items[0]) := RowOf(items[0])]);
      GrowsBy(sha256, s1, items[1..], r) && FirstWriteWins(sha256, s1, items[1..], r)
    ensures FirstWriteWins(sha256, s, items, Upserted(r.store, r.inserted + 1, r.skipped))
  {
    forall j | 0 <= j < |items| && Fingerprint(sha256, items[j]) !in s.items && FirstOccurrence(sha256, items, j)
      ensures Fingerprint(sha256, items[j]) in r.store.items
      ensures r.store.items[Fingerprint(sha256, items[j])] == RowOf(items[j])
    {
      if j > 0 {
        TailFirstOccurrence(sha256, items, j);
      }
    }
  }

  /** A batch whose fingerprints are all stored already changes nothing. */
  lemma AllStoredIsNoop(sha256: string -> string, s: Store, items: seq<Item>, r: Upserted)
    requires Fingerprints(sha256, items) <= s.items.Keys
    requires Upserts(sha256, s, items, r)
    ensures r == Upserted(s, 0, |items|)
  {
    assert Fingerprints(sha256, items) - s.items.Keys == {};
    assert r.store.items.Keys == s.items.Keys;
    assert r.store.items == s.items;
  }

  /** Submitting a batch a second time inserts nothing, skips every record
      and leaves the store exactly as the first submission left it. */
  lemma ResubmitIsNoop(sha256: string -> string, s: Store, items: seq<Item>)
    ensures var first := UpsertMany(sha256, s, items);
      UpsertMany(sha256, first.store, items) == Upserted(first.store, 0, |items|)
  {
    var first := UpsertMany(sha256, s, items);
    AllStoredIsNoop(sha256, first.store, items, UpsertMany(sha256, first.store, items));
  }

  /** `total_items()` after a batch is the count before it plus the batch's
      `inserted`, which is the number of its fingerprints not stored before. */
  lemma TotalGrowsByInserted(sha256: string -> string, s: Store, items: seq<Item>)
    ensures var r := UpsertMany(sha256, s, items);
      && TotalItems(r.store) == TotalItems(s) + r.inserted
      && r.inserted == |Fingerprints(sha256, items) - s.items.Keys|
  {
  }

  /** A batch whose records have pairwise distinct fingerprints has as many
      fingerprints as records. */
  lemma {:induction false} DistinctFingerprintsCount(sha256: string -> string, items: seq<Item>)
    requires forall i, j :: 0 <= i < j < |items| ==> Fingerprint(sha256, items[i]) != Fingerprint(sha256, items[j])
    ensures |Fingerprints(sha256, items)| == |items|
    decreases |items|
  {
    if items != [] {
      FingerprintsCons(sha256, items);
      assert forall i, j :: 0 <= i < j < |items[1..]| ==> items[1..][i] == items[i + 1] && items[1..][j] == items[j + 1];
      DistinctFingerprintsCount(sha256, items[1..]);
      assert Fingerprint(sha256, items[0]) !in Fingerprints(sha256, items[1..]);
    }
  }

  /** Idempotent ingestion: N records with distinct fingerprints, none of
      them stored yet, give (N, 0) on the first submission and (0, N) on the
      second. */
  lemma IdempotentIngestion(sha256: string -> string, s: Store, items: seq<Item>)
    requires forall i, j :: 0 <= i < j < |items| ==> Fingerprint(sha256, items[i]) != Fingerprint(sha256, items[j])
    requires forall i :: 0 <= i < |items| ==> Fingerprint(sha256, items[i]) !in s.items
    ensures var first := UpsertMany(sha256, s, items);
      && first.inserted == |items| && first.skipped == 0
      && var second := UpsertMany(sha256, first.store, items);
         second.inserted == 0 && second.skipped == |items|
  {
    DistinctFingerprintsCount(sha256, items);
    assert Fingerprints(sha256, items) - s.items.Keys == Fingerprints(sha256, items);
    ResubmitIsNoop(sha256, s, items);
  }

  /** A fingerprint repeated within one batch is inserted once, by its first
      occurrence, and skipped at every later one. */
  lemma RepeatedWithinBatch(sha256: string -> string, s: Store, items: seq<Item>)
    requires |items| >= 1
    requires forall i :: 0 <= i < |items| ==> Fingerprint(sha256, items[i]) == Fingerprint(sha256, items[0])
    requires Fingerprint(sha256, items[0]) !in s.items
    ensures var r := UpsertMany(sha256, s, items);
      && r.inserted == 1 && r.skipped == |items| - 1
      && r.store.items[Fingerprint(sha256, items[0])] == RowOf(items[0])
  {
    assert Fingerprints(sha256, items) == {Fingerprint(sha256, items[0])};
    assert FirstOccurrence(sha256, items, 0);
  }

  /** `get_state(key)`: the stored value, or None for a key never set. */
  function GetState(s: Store, key: string): (v: Option<string>)
    ensures v.Some? <==> key in s.state
    ensures v.Some? ==> v.value == s.state[key]
  {
    if key in s.state then Some(s.state[key]) else None
  }

  /** `set_state(key, value)`: an upsert on `state`; the last write wins,
      other keys keep their values and `items` is untouched. */
  function SetState(s: Store, key: string, value: string): (r: Store)
    ensures GetState(r, key) == Some(value)
    ensures forall k :: k != key ==> GetState(r, k) == GetState(s, k)
    ensures r.items == s.items
  {
    s.(state := s.state[key := value])
  }

  /** One entry of `fetch_recent`: six columns of a stored row. */
  datatype Summary = Summary(kind: string, source: string, sourceId: string, title: string,
                             publishedAt: Option<string>, collectedAt: string)

  function Summarize(r: Row): Summary {
    Summary(r.kind, r.source, r.sourceId, r.title, r.publishedAt, r.collectedAt)
  }

  /** How many of `n` rows `LIMIT limit` returns; SQLite reads a negative
      limit as no limit at all. */
  function LimitCount(limit: int, n: nat): (c: nat)
    ensures c <= n
    ensures limit >= 0 ==> c <= limit
    ensures c < n ==> c == limit
  {
    if limit < 0 then n else Text.Min(limit, n)
  }

  /** A non-empty set of stored fingerprints has a most recently collected row. */
  lemma {:induction false} LatestExists(m: map<string, Row>, ks: set<string>)
    requires ks != {} && ks <= m.Keys
    ensures exists k :: k in ks && forall k' :: k' in ks ==> Text.LessEq(m[k'].collectedAt, m[k].collectedAt)
    decreases |ks|
  {
    var x :| x in ks;
    var rest := ks - {x};
    if rest == {} {
      assert ks == {x};
      Text.LessEqReflexive(m[x].collectedAt);
    } else {
      LatestExists(m, rest);
      var y :| y in rest && forall k' :: k' in rest ==> Text.LessEq(m[k'].collectedAt, m[y].collectedAt);
      Text.LessEqTotal(m[x].collectedAt, m[y].collectedAt);
      if Text.LessEq(m[x].collectedAt, m[y].collectedAt) {
        assert forall k' :: k' in ks ==> Text.LessEq(m[k'].collectedAt, m[y].collectedAt);
      } else {
        forall k' | k' in ks ensures Text.LessEq(m[k'].collectedAt, m[x].collectedAt) {
          if k' == x {
            Text.LessEqReflexive(m[x].collectedAt);
          } else {
            Text.LessEqTransitive(m[k'].collectedAt, m[y].collectedAt, m[x].collectedAt);
          }
        }
      }
    }
  }

  /** Entries ordered by `collected_at`, latest first. */
  predicate NewestFirst(out: seq<Summary>) {
    forall i, j :: 0 <= i < j < |out| ==> Text.LessEq(out[j].collectedAt, out[i].collectedAt)
  }

  /** Appending an entry no later than the last one keeps the order. */
  lemma AppendOlder(out: seq<Summary>, x: Summary)
    requires NewestFirst(out)
    requires |out| > 0 ==> Text.LessEq(x.collectedAt, out[|out| - 1].collectedAt)
    ensures NewestFirst(out + [x])
  {
    forall i | 0 <= i < |out| ensures Text.LessEq(x.collectedAt, out[i].collectedAt) {
      if i < |out| - 1 {
        Text.LessEqTransitive(x.collectedAt, out[|out| - 1].collectedAt, out[i].collectedAt);
      }
    }
  }

  /** One of the most recently collected rows among `rest`. */
  method PickLatest(m: map<string, Row>, rest: set<string>) returns (k: string)
    requires rest != {} && rest <= m.Keys
    ensures k in rest
    ensures forall k' :: k' in rest ==> Text.LessEq(m[k'].collectedAt, m[k].collectedAt)
  {
    LatestExists(m, rest);
    k :| k in rest && forall k' :: k' in rest ==> Text.LessEq(m[k'].collectedAt, m[k].collectedAt);
  }

  /** The bookkeeping of the `fetch_recent` loop: `picked` lists distinct
      stored fingerprints and `rest` holds exactly the others. */
  ghost predicate Tracked(m: map<string, Row>, rest: set<string>, picked: seq<string>) {
    && rest <= m.Keys
    && (forall k :: k in m ==> (k in rest <==> k !in picked))
    && |rest| == |m| - |picked|
    && (forall i, j :: 0 <= i < j < |picked| ==> picked[i] != picked[j])
  }

  /** What the loop has listed: the row behind each entry, latest first,
      and nothing left in `rest` newer than the last entry. */
  ghost predicate Listed(m: map<string, Row>, rest: set<string>, out: seq<Summary>, picked: seq<string>) {
    && rest <= m.Keys
    && |out| == |picked|
    && (forall i :: 0 <= i < |out| ==> picked[i] in m && out[i] == Summarize(m[picked[i]]))
    && NewestFirst(out)
    && (forall k :: k in rest && |out| > 0 ==> Text.LessEq(m[k].collectedAt, out[|out| - 1].collectedAt))
  }

  lemma TrackStep(m: map<string, Row>, rest: set<string>, picked: seq<string>, k: string)
    requires Tracked(m, rest, picked) && k in rest
    ensures Tracked(m, rest - {k}, picked + [k])
  {
    var picked' := picked + [k];
    assert forall k' :: k' in picked' <==> k' in picked || k' == k;
    assert |rest - {k}| == |rest| - 1;
  }

  lemma ListStep(m: map<string, Row>, rest: set<string>, out: seq<Summary>, picked: seq<string>, k: string)
    requires Listed(m, rest, out, picked)
    requires k in rest && forall k' :: k' in rest ==> Text.LessEq(m[k'].collectedAt, m[k].collectedAt)
    ensures Listed(m, rest - {k}, out + [Summarize(m[k])], picked + [k])
  {
    AppendOlder(out, Summarize(m[k]));
  }

  /** `fetch_recent(limit)`: `ORDER BY collected_at DESC LIMIT ?`. Rows with
      equal `collected_at` come back in an order SQLite leaves open, so the
      method picks among them freely. `picked` names the row behind each
      entry. */
  method FetchRecent(s: Store, limit: int := 10) returns (out: seq<Summary>, ghost picked: seq<string>)
    ensures |out| == LimitCount(limit, |s.items|)
    ensures |picked| == |out|
    ensures forall i :: 0 <= i < |out| ==> picked[i] in s.items && out[i] == Summarize(s.items[picked[i]])
    ensures forall i, j :: 0 <= i < j < |picked| ==> picked[i] != picked[j]
    ensures NewestFirst(out)
    ensures forall k :: k in s.items && k !in picked && |out| > 0
                        ==> Text.LessEq(s.items[k].collectedAt, out[|out| - 1].collectedAt)
  {
    var n := LimitCount(limit, |s.items|);
    var rest := s.items.Keys;
    out := [];
    picked := [];
    while |out| < n
      invariant |out| <= n
      invariant Tracked(s.items, rest, picked)
      invariant Listed(s.items, rest, out, picked)
    {
      var k := PickLatest(s.items, rest);
      TrackStep(s.items, rest, picked, k);
      ListStep(s.items, rest, out, picked, k);
      out := out + [Summarize(s.items[k])];
      picked := picked + [k];
      rest := rest - {k};
    }
  }
}

=== FILE: text.dfy ===
/** The string operations of Python's `str` that the collectors rely on:
    `strip()`, `strip(chars)`, `startswith`, `upper()` on ASCII, `str(int)`,
    prefix slicing `s[:n]`, and the code-point ordering that both Python and
    SQLite's BINARY collation use to compare strings. */
module Text {

  /** Characters for which Python's `str.isspace()` is true. */
  predicate IsSpace(c: char) {
    || c == ' ' || c == '\t' || c == '\n' || c == '\r'
    || c == '\U{0B}' || c == '\U{0C}'
    || ('\U{1C}' <= c <= '\U{1F}')
    || c == '\U{85}' || c == '\U{A0}' || c == '\U{1680}'
    || ('\U{2000}' <= c <= '\U{200A}')
    || c == '\U{2028}' || c == '\U{2029}' || c == '\U{202F}' || c == '\U{205F}' || c == '\U{3000}'
  }

  /** True when `s.strip()` would be empty, i.e. `s` is falsy after stripping. */
  predicate IsBlank(s: string) {
    forall k :: 0 <= k < |s| ==> IsSpace(s[k])
  }

  /** The first index at or after `from` whose character is not dropped. */
  function SkipDropped(s: string, drop: char -> bool, from: nat): (n: nat)
    requires from <= |s|
    ensures from <= n <= |s|
    ensures forall k :: from <= k < n ==> drop(s[k])
    ensures n == |s| || !drop(s[n])
    decreases |s| - from
  {
    if from < |s| && drop(s[from]) then SkipDropped(s, drop, from + 1) else from
  }

  /** The end of `s[lo..hi]` once its trailing dropped characters are gone. */
  function TrimDropped(s: string, drop: char -> bool, lo: nat, hi: nat): (m: nat)
    requires lo <= hi <= |s|
    ensures lo <= m <= hi
    ensures forall k :: m <= k < hi ==> drop(s[k])
    ensures m == lo || !drop(s[m - 1])
    decreases hi
  {
    if lo < hi && drop(s[hi - 1]) then TrimDropped(s, drop, lo, hi - 1) else hi
  }

  /** Where the kept part of `s` starts once leading dropped characters are gone. */
  function StripStart(s: string, drop: char -> bool): nat
    ensures StripStart(s, drop) <= |s|
  {
    SkipDropped(s, drop, 0)
  }

  /** Drops the characters satisfying `drop` at both ends: the result is the
      slice of `s` left once every dropped character at each end is gone. */
  function StripBy(s: string, drop: char -> bool): (r: string)
    ensures var i := StripStart(s, drop);
      && i + |r| <= |s| && r == s[i..i + |r|]
      && (forall k :: 0 <= k < i ==> drop(s[k]))
      && (forall k :: i + |r| <= k < |s| ==> drop(s[k]))
    ensures r == [] || (!drop(r[0]) && !drop(r[|r| - 1]))
    ensures r == [] <==> forall k :: 0 <= k < |s| ==> drop(s[k])
  {
    var i := SkipDropped(s, drop, 0);
    var j := TrimDropped(s, drop, i, |s|);
    if i == |s| then [] else
    assert !drop(s[j - 1]);
    s[i..j]
  }

  /** Python `s.strip()`. */
  function Strip(s: string): (r: string)
    ensures var i := StripStart(s, IsSpace);
      && i + |r| <= |s| && r == s[i..i + |r|]
      && (forall k :: 0 <= k < i ==> IsSpace(s[k]))
      && (forall k :: i + |r| <= k < |s| ==> IsSpace(s[k]))
    ensures |r| <= |s|
    ensures r == "" <==> IsBlank(s)
    ensures r == "" || (!IsSpace(r[0]) && !IsSpace(r[|r| - 1]))
  {
    StripBy(s, IsSpace)
  }

  /** A string with no whitespace at either end is its own `strip()`. */
  lemma StripKeepsUnpadded(s: string)
    requires s == "" || (!IsSpace(s[0]) && !IsSpace(s[|s| - 1]))
    ensures Strip(s) == s
  {
    if s != "" {
      assert SkipDropped(s, IsSpace, 0) == 0;
      assert !IsSpace(s[|s| - 1]);
    }
  }

  /** Python `s.strip(" -")`: spaces and hyphens at both ends. */
  function StripSpaceHyphen(s: string): (r: string)
    ensures var i := StripStart(s, SpaceOrHyphen);
      && i + |r| <= |s| && r == s[i..i + |r|]
      && (forall k :: 0 <= k < i ==> SpaceOrHyphen(s[k]))
      && (forall k :: i + |r| <= k < |s| ==> SpaceOrHyphen(s[k]))
    ensures |r| <= |s|
    ensures r == "" || (r[0] != ' ' && r[0] != '-' && r[|r| - 1] != ' ' && r[|r| - 1] != '-')
    ensures r == "" <==> forall k :: 0 <= k < |s| ==> s[k] in " -"
  {
    StripBy(s, SpaceOrHyphen)
  }

  predicate SpaceOrHyphen(c: char) {
    c == ' ' || c == '-'
  }

  /** `r` is what `strip(" -")` leaves of `s`: the slice after the leading
      spaces and hyphens, with only spaces and hyphens cut off after it. */
  predicate StripsSpaceHyphenTo(s: string, r: string) {
    var i := StripStart(s, SpaceOrHyphen);
    && i + |r| <= |s| && r == s[i..i + |r|]
    && (forall k :: 0 <= k < i ==> SpaceOrHyphen(s[k]))
    && (forall k :: i + |r| <= k < |s| ==> SpaceOrHyphen(s[k]))
  }

  /** A string with no space or hyphen at either end is its own
      `strip(" -")`. */
  lemma StripSpaceHyphenKeepsUnpadded(s: string)
    requires s == "" || (s[0] !in " -" && s[|s| - 1] !in " -")
    ensures StripSpaceHyphen(s) == s
  {
    if s != "" {
      assert SkipDropped(s, SpaceOrHyphen, 0) == 0;
      assert !SpaceOrHyphen(s[|s| - 1]);
    }
  }

  predicate StartsWith(s: string, prefix: string) {
    |prefix| <= |s| && s[..|prefix|] == prefix
  }

  function Min(a: int, b: int): int { if a <= b then a else b }

  function Max(a: int, b: int): int { if a >= b then a else b }

  /** Python `s[:n]`: a prefix of `s`; a negative `n` counts from the end. */
  function Take<T>(s: seq<T>, n: int): (r: seq<T>)
    ensures |r| <= |s| && r == s[..|r|]
    ensures n >= 0 ==> |r| == Min(n, |s|)
    ensures n < 0 ==> |r| == Max(0, |s| + n)
  {
    if n >= 0 then s[..Min(n, |s|)] else s[..Max(0, |s| + n)]
  }

  /** Python `c.upper()` restricted to ASCII letters. */
  function UpperChar(c: char): char {
    if 'a' <= c <= 'z' then (c as int - 32) as char else c
  }

  function UpperAscii(s: string): (r: string)
    ensures |r| == |s|
    ensures forall k :: 0 <= k < |s| ==> r[k] == UpperChar(s[k])
  {
    seq(|s|, k requires 0 <= k < |s| => UpperChar(s[k]))
  }

  predicate IsDigit(c: char) {
    '0' <= c <= '9'
  }

  /** `str(n)` for a natural number: its decimal digits, most significant first. */
  function NatToString(n: nat): (r: string)
    ensures |r| >= 1
    ensures forall k :: 0 <= k < |r| ==> IsDigit(r[k])
    decreases n
  {
    if n < 10 then [(48 + n) as char]
    else NatToString(n / 10) + [(48 + n % 10) as char]
  }

  /** The number a non-empty string of decimal digits denotes. */
  function DigitsValue(s: string): nat
    requires forall k :: 0 <= k < |s| ==> IsDigit(s[k])
    decreases |s|
  {
    if s == [] then 0
    else
      assert IsDigit(s[|s| - 1]);
      10 * DigitsValue(s[..|s| - 1]) + (s[|s| - 1] as int - 48)
  }

  /** Reading back the digits `str(n)` prints gives `n`. */
  lemma {:induction false} NatToStringRoundTrip(n: nat)
    ensures DigitsValue(NatToString(n)) == n
    decreases n
  {
    if n >= 10 {
      NatToStringRoundTrip(n / 10);
      var r := NatToString(n);
      assert r[..|r| - 1] == NatToString(n / 10);
    }
  }

  /** Python `str(i)` for any integer. */
  function IntToString(i: int): (r: string)
    ensures |r| >= 1
    ensures i < 0 <==> r[0] == '-'
  {
    if i < 0 then "-" + NatToString(-i) else NatToString(i)
  }

  /** Lexicographic order on code points: Python's `<=` on `str`, and
      SQLite's BINARY collation on UTF-8 text (UTF-8 preserves code point order). */
  predicate LessEq(a: string, b: string)
    decreases |a|
  {
    a == [] || (b != [] && (a[0] < b[0] || (a[0] == b[0] && LessEq(a[1..], b[1..]))))
  }

  lemma {:induction false} LessEqReflexive(a: string)
    ensures LessEq(a, a)
    decreases |a|
  {
    if a != [] { LessEqReflexive(a[1..]); }
  }

  lemma {:induction false} LessEqTotal(a: string, b: string)
    ensures LessEq(a, b) || LessEq(b, a)
    decreases |a|
  {
    if a != [] && b != [] && a[0] == b[0] { LessEqTotal(a[1..], b[1..]); }
  }

  lemma {:induction false} LessEqTransitive(a: string, b: string, c: string)
    requires LessEq(a, b) && LessEq(b, c)
    ensures LessEq(a, c)
    decreases |a|
  {
    if a != [] && b != [] && c != [] && a[0] == b[0] && b[0] == c[0] {
      LessEqTransitive(a[1..], b[1..], c[1..]);
    }
  }
}

=== FILE: wrappers.dfy ===
/** Python's `None`-or-value and raise-or-return, as datatypes.

- Option<T> stands for `Optional[T]` (`None` or a value).
- Exception is a raised Python exception, identified by its `repr`.
- Result<T> is either a returned value or a raised exception; it is
  failure-compatible, so `:-` propagates an exception the way Python does.
 */
module Wrappers {

  datatype Option<+T> = None | Some(value: T) {

    /** The value, or `default` when None. */
    function GetOr(default: T): T {
      match this
      case Some(v) => v
      case None => default
    }
  }

  /** A raised exception, identified by the text `repr(e)` would give. */
  datatype Exception = Exception(repr: string)

  datatype Result<+T> = Ok(value: T) | Err(error: Exception) {

    predicate IsFailure() {
      Err?
    }

    function PropagateFailure<U>(): Result<U>
      requires Err?
    {
      Err(error)
    }

    function Extract(): T
      requires Ok?
    {
      value
    }
  }
}
